=== FILE: README.md ===
# Migration ledger for concrete5 packages

This project models the migration ledger of the concrete5 package-migration
library, and proves properties of that model. The ledger is the
`TripleIMigration` table, with one row per migration file of a package. A row
holds the file's name, the owning package's handle, a `completed` flag and the
completion time. Each row moves from pending to completed.

Around the table sit four pieces of logic:

- **Discovery** (`recordNewMigrations`). It lists the package's
  `src/Migrations/` directory, drops `.` and `..`, and removes the filenames
  the package has already completed. It then gets or creates a row for every
  remaining name.
- **The pending query** (`getPendingMigrations`). It first runs discovery,
  then returns the package's uncompleted rows in ascending filename order.
- **Execution** (`run`). A `.sql` file is executed as SQL. Any other file is
  loaded, and the class named after it is instantiated and run. The row is
  marked completed only when that work succeeds.
- **The runner** (`MigrationRunner::migrate`). It runs the pending list in
  order.

Underneath is the generic record lifecycle every entity inherits from
`BaseModel`:

- the error map;
- `setData` with its protected keys;
- the `save` control flow: `beforeSave`, validation, then merge for a stored
  record, or `beforeCreate` and persist for a new one;
- `__clone`;
- `isNewRecord`;
- the guards of `getByID` and `getOneBy`;
- the sort normalisation of `getAll`.

Modules:

- `Wrappers`: an `Option` type standing in for PHP's `null`.
- `Collections`: order-preserving filtering (`Select`), a character-by-character
  string order (`LexLeq`), and an insertion sort by a string key (`SortBy`).
  These stand in for the ORM's `findBy` criteria and its `ORDER BY filename ASC`.
- `BaseModel`: the record lifecycle. A `Model` object holds its id, its
  properties and its error map. A `Store` object is the ORM's table for one
  entity class.
- `Migrations`: the `Migration` entity.
  - A row is a `Migration` value, and the table is a `Table` value: the rows in
    insertion order plus the next generated id.
  - `Ledger` is the object whose methods change the table. It is `BaseModel`'s
    `Store` specialised to the `Migration` entity (both merge through
    `Collections.ReplaceByKey`): `Migration`, `Table`,
    `FindByFilename`, `ReplaceById`, `SaveRow` and `Ledger.Save` play the parts
    of `Row`, the store's rows, `FindMatch` on the filename, `MergeRow`,
    `SaveStep` and `Model.Save`, with the entity's hooks (which all accept)
    filled in.
  - Each method is proved equal to a pure function of the old table: `Ledger.Save`
    to `SaveRow`, `GetOrCreateByFileName` to `GetOrCreate`, `CreateEach` to
    `CreateAll`, `RecordNewMigrations` to `RecordNew`, `GetPendingMigrations` to
    `Pending`, and `Run` to `RunResult`. The properties are proved about those
    functions.
- `MigrationRunner`: the `Runner` object, `Migrate`, and `RunInOrder`, the
  specification of the runner's loop.

Everything outside the process is a field of `Env`:

- the `DIR_PACKAGES` constant;
- directory listings;
- file contents;
- whether executing the SQL text read from a file throws, given the file's path
  and the text;
- what loading a file raises: nothing, an `\Exception`, or an `\Error`;
- whether a class exists;
- what constructing and running the migration class a file names raises, given
  the file's path and the class name: nothing, an `\Exception`, or an `\Error`.

The last two take the file's path because the database and the loaded classes
change from one run to the next. Two files holding the same SQL can therefore
end differently: the first adds a column, the second finds it already there
(`SameSqlMayEndDifferently`).

Two further inputs are not in `Env`. The completion time is a parameter (`now`
for one run, `clock(k)` for the k-th run of `migrate`). `RunInOrder` takes the
outcome of each run as a function `effect`, and `migrate` passes it
`EffectIn(env)`.

How `run` can end:

- An SQL error leaves `run` and `migrate` with an uncaught exception.
- So does an `\Error` while loading the file (a `ParseError`, say) or while
  constructing or running the migration class (a `TypeError`, say): `catch
  (\Exception $e)` does not catch an `\Error`.
- So does a missing migration class. `new $class()` on an unknown class raises
  an `Error`.
- An `\Exception` while loading the file, or while constructing or running the
  migration class, is caught. Then `run` returns without marking the row, and
  `migrate` goes on to the next migration.
- `empty($sql)` holds for an unreadable file (`false`), for `""` and for `"0"`.
  All three are skipped without marking the row.

Discovery looks rows up **by filename alone**. A filename that already has a
row, from any package, is never given a row for another package
(`GetOrCreateExisting`). The model keeps this behaviour of the code.

## Model

| member | source | states |
|---|---|---|
| `Collections.Select` | src/YOUR_PACKAGE/Entities/Migration.php:96-101 | keeps exactly the elements that satisfy the criterion, with their multiplicities, and never grows; their order is stated by `SelectAppend` and `SelectSubsequence` |
| `Collections.SelectAppend` | src/YOUR_PACKAGE/Entities/Migration.php:124 | filtering a concatenation is the concatenation of the filtered parts, so the kept elements stay in input order |
| `Collections.SelectSubsequence` | src/YOUR_PACKAGE/Entities/Migration.php:124 | the kept elements are a subsequence of the input: they keep their input order |
| `Collections.SelectPrefixStep` | src/YOUR_PACKAGE/Entities/Migration.php:138-142 | filtering one element further appends that element exactly when it is kept |
| `Collections.LexLeqTotal` | src/YOUR_PACKAGE/Entities/Migration.php:111 | any two filenames are ordered one way or the other |
| `Collections.LexLeqTransitive` | src/YOUR_PACKAGE/Entities/Migration.php:111 | the filename order is transitive |
| `Collections.LexLeqAntisymmetric` | src/YOUR_PACKAGE/Entities/Migration.php:111 | two filenames ordered both ways are equal |
| `Collections.InsertBy` | src/YOUR_PACKAGE/Entities/Migration.php:111 | inserting adds exactly one element and loses none |
| `Collections.SortedCons` | src/YOUR_PACKAGE/Entities/Migration.php:111 | an element no greater than any element of a sorted sequence can be put in front of it |
| `Collections.InsertBySorted` | src/YOUR_PACKAGE/Entities/Migration.php:111 | inserting into a sorted sequence keeps it sorted |
| `Collections.SortBy` | src/YOUR_PACKAGE/Entities/Migration.php:111 | `ORDER BY key ASC` returns a permutation of its input, sorted by the key |
| `Collections.DistinctFromMultiset` | src/YOUR_PACKAGE/Entities/Migration.php:106-112 | a sequence with no value counted twice has different values at different positions |
| `Collections.MultisetFromDistinct` | src/YOUR_PACKAGE/Entities/Migration.php:106-112 | a sequence without repeated values counts each value at most once |
| `BaseModel.IsNewId` | src/TripleI/Libraries/BaseModel.php:241-244 | `(!(bool)$id) > 0` holds exactly for a null or zero id |
| `BaseModel.SaveStep` | src/TripleI/Libraries/BaseModel.php:170-184 | `save` aborts exactly when `beforeSave` vetoes, when validation fails without `skipValidation`, or when a record without a positive id fails `beforeCreate`; it merges exactly when the record proceeds with a positive id; it persists only records without one |
| `BaseModel.MergeNeverAsksBeforeCreate` | src/TripleI/Libraries/BaseModel.php:177-183 | a record with a positive id gets the same outcome whatever `beforeCreate` would answer, and is never persisted |
| `BaseModel.ApplyData` | src/TripleI/Libraries/BaseModel.php:139-156 | `ccm_token` and `id` are never assigned; the properties afterwards are the old ones plus every other key of the data |
| `BaseModel.ApplyDataLastWins` | src/TripleI/Libraries/BaseModel.php:145-155 | a non-protected key ends with the value of its last occurrence in the data |
| `BaseModel.ApplyDataLeavesOthers` | src/TripleI/Libraries/BaseModel.php:145-155 | a property the data does not mention keeps its value |
| `BaseModel.FindRow` | src/TripleI/Libraries/BaseModel.php:63 | `find` returns a stored row with the id, or nothing when no row has it |
| `Collections.ReplaceByKey` | src/TripleI/Libraries/BaseModel.php:178 | `merge` over rows in a sequence keeps the number of rows and each row's key |
| `BaseModel.MergeRow` | src/TripleI/Libraries/BaseModel.php:178 | `merge` is `ReplaceByKey` on the row id: it keeps the number of rows and the id of every row |
| `BaseModel.MergeRowFind` | src/TripleI/Libraries/BaseModel.php:178 | after a merge, `find` by the record's id returns the merged record when that id was stored, and `find` by any other id returns what it did before |
| `BaseModel.FindMatch` | src/TripleI/Libraries/BaseModel.php:84 | `findOneBy` returns a stored row matching every criterion (`id` against the row's id column, any other key against the property of that name), or nothing when none matches |
| `BaseModel.FindMatchById` | src/TripleI/Libraries/BaseModel.php:84 | `findOneBy(['id' => $id])` finds the same row as `find($id)` |
| `BaseModel.FindRowAppendFresh` | src/TripleI/Libraries/BaseModel.php:183 | a row appended under an id no stored row has is what `find` by that id returns |
| `BaseModel.GetByID` | src/TripleI/Libraries/BaseModel.php:57-69 | an id of 0 gives `false` without a lookup; otherwise the row with that id, or `false` when there is none |
| `BaseModel.GetOneBy` | src/TripleI/Libraries/BaseModel.php:78-89 | a non-array argument throws InvalidArgumentException; otherwise a matching row, or `false` when none matches |
| `BaseModel.NormaliseSort` | src/TripleI/Libraries/BaseModel.php:109-123 | a field name becomes `[name => 'ASC']`; a non-empty order is kept; an empty one is replaced by `_default_sort` when the model declares one |
| `BaseModel.Count` | src/TripleI/Libraries/BaseModel.php:112 | `count($sort) == 0` holds exactly for the empty array |
| `BaseModel.MergeValid` | src/TripleI/Libraries/BaseModel.php:178 | merging keeps the stored ids positive, below the next id and distinct, and `find` by a stored id then returns the merged record |
| `BaseModel.PersistValid` | src/TripleI/Libraries/BaseModel.php:183 | persisting under the next id keeps the stored ids valid once that id is used up, and `find` by it returns the new row |
| `BaseModel.Model.AddError` | src/TripleI/Libraries/BaseModel.php:246-249 | the key's message becomes `msg`, overwriting any earlier one; `hasError` holds; every other key's message is unchanged |
| `BaseModel.Model.HasError` | src/TripleI/Libraries/BaseModel.php:251-254 | true exactly when the error map is non-empty |
| `BaseModel.Model.GetErrors` | src/TripleI/Libraries/BaseModel.php:261-268 | null gives the whole map; a key gives its message when present, and null otherwise |
| `BaseModel.Model.SetData` | src/TripleI/Libraries/BaseModel.php:139-156 | the loop leaves the properties equal to `ApplyData` of the old ones and the data |
| `BaseModel.Model.Save` | src/TripleI/Libraries/BaseModel.php:165-190 | the result is true exactly when `SaveStep` does not abort; an abort leaves id and store unchanged; a merge rewrites the stored row, after which `find` by a stored id returns the saved record; a persist stores a new row under the next id, gives the record that id, and `find` by it returns the new row; the store stays valid |
| `BaseModel.Model.Clone` | src/TripleI/Libraries/BaseModel.php:128-131 | the copy is a fresh record with the same properties and errors, a null id, and so is new |
| `BaseModel.Model.SetId` | src/TripleI/Libraries/BaseModel.php:229-234 | the id becomes the argument and the record itself is returned |
| `BaseModel.Model.IsNewRecord` | src/TripleI/Libraries/BaseModel.php:241-244 | true exactly when the id is null or 0 |
| `Migrations.MigrationPath` | src/YOUR_PACKAGE/Entities/Migration.php:148-151 | the path is `DIR_PACKAGES`, `/`, the handle, then `/src/Migrations/` |
| `Migrations.MigrationPathInjective` | src/YOUR_PACKAGE/Entities/Migration.php:148-151 | different packages have different migration directories |
| `Migrations.FilePath` | src/YOUR_PACKAGE/Entities/Migration.php:153-156 | a row's file path is its own package's migration directory followed by its filename |
| `Migrations.FilePathInDirectory` | src/YOUR_PACKAGE/Entities/Migration.php:148-156 | `getFilePath` is `getMigrationPath` of the row's package plus the filename |
| `Migrations.IsSqlFile` | src/YOUR_PACKAGE/Entities/Migration.php:63 | `substr($filename, -4) == '.sql'`; what it means is stated by `IsSqlFileIff` |
| `Migrations.IsSqlFileIff` | src/YOUR_PACKAGE/Entities/Migration.php:63 | a file takes the SQL path exactly when its name has at least four characters and ends in `.sql` |
| `Migrations.StripLeadingDigitsSpec` | src/YOUR_PACKAGE/Entities/Migration.php:77 | `preg_replace('#^\d+#', '')` removes a run of digits and keeps a suffix that does not start with a digit |
| `Migrations.StripLeadingDigitsOf` | src/YOUR_PACKAGE/Entities/Migration.php:77 | digits followed by a non-digit lose exactly the digits |
| `Migrations.ClassName` | src/YOUR_PACKAGE/Entities/Migration.php:77 | the class name built from the filename; its shape is stated by `ClassNameShape` and `ClassNameOf` |
| `Migrations.ClassNameShape` | src/YOUR_PACKAGE/Entities/Migration.php:77 | whatever the filename, the class is `\Migrations\...Migration` |
| `Migrations.ClassNameOf` | src/YOUR_PACKAGE/Entities/Migration.php:77 | a file named digits, separator, `Name`, 4-character extension runs the class `\Migrations\NameMigration` |
| `Migrations.ClassNameExample` | src/YOUR_PACKAGE/Entities/Migration.php:77 | `001_AddTable.php` runs `\Migrations\AddTableMigration` |
| `Migrations.Validate` | src/YOUR_PACKAGE/Entities/Migration.php:177-180 | a migration row is always valid |
| `Migrations.ToString` | src/YOUR_PACKAGE/Entities/Migration.php:185-188 | the string form is the filename, ` - `, then the package handle |
| `Migrations.FindByFilename` | src/YOUR_PACKAGE/Entities/Migration.php:49 | returns a row with that filename, of any package, or nothing when no row has it |
| `Migrations.CompletedMigrations` | src/YOUR_PACKAGE/Entities/Migration.php:96-101 | exactly the package's completed rows |
| `Migrations.Filenames` | src/YOUR_PACKAGE/Entities/Migration.php:119-122 | the filenames of the rows, position by position |
| `Migrations.CollectFilenames` | src/YOUR_PACKAGE/Entities/Migration.php:119-122 | the loop collects the completed rows' filenames in order |
| `Migrations.MigrationFileNames` | src/YOUR_PACKAGE/Entities/Migration.php:135-146 | the listing of the package's directory filtered by `Select` to the entries other than `.` and `..`, so exactly those entries; none when the directory cannot be opened |
| `Migrations.MigrationFileNamesInOrder` | src/YOUR_PACKAGE/Entities/Migration.php:135-146 | the discovered names keep the order of the directory listing |
| `Migrations.GetMigrationFileNames` | src/YOUR_PACKAGE/Entities/Migration.php:135-146 | the method yields `MigrationFileNames`: nothing when the directory cannot be opened, otherwise what the readdir loop collects |
| `Migrations.ReadEntries` | src/YOUR_PACKAGE/Entities/Migration.php:138-142 | the readdir loop collects every entry other than `.` and `..`, in listing order |
| `Migrations.NotRun` | src/YOUR_PACKAGE/Entities/Migration.php:124 | `array_diff` keeps exactly the discovered names that are not completed; their order is stated by `NotRunInOrder` |
| `Migrations.NotRunInOrder` | src/YOUR_PACKAGE/Entities/Migration.php:124 | the names left to run keep their discovery order |
| `Migrations.ReplaceByIdKeeps` | src/TripleI/Libraries/BaseModel.php:178 | merging a migration over the stored row with its id and filename replaces that row alone, keeps the table well-formed, and the filename lookup then finds the merged migration |
| `Migrations.SaveRow` | src/TripleI/Libraries/BaseModel.php:165-190 | a migration with a positive id is merged; any other one is stored under the next id, which is then used up |
| `Migrations.GetOrCreate` | src/YOUR_PACKAGE/Entities/Migration.php:45-59 | the result has the filename and is in the table; either the table is unchanged or exactly one pending row of the package was appended under the next id; a filename without a row always gets one |
| `Migrations.GetOrCreateExisting` | src/YOUR_PACKAGE/Entities/Migration.php:45-59 | an existing row with the filename is returned and nothing is added, whatever package asks |
| `Migrations.GetOrCreateWellFormed` | src/YOUR_PACKAGE/Entities/Migration.php:45-59 | get-or-create keeps ids and filenames unique |
| `Migrations.GetOrCreateIdempotent` | src/YOUR_PACKAGE/Entities/Migration.php:45-59 | asking again for the same filename returns the same row and changes nothing |
| `Migrations.CreateAll` | src/YOUR_PACKAGE/Entities/Migration.php:126-128 | the loop only appends, and every appended row is a pending row of the package for one of the names |
| `Migrations.CreateAllWellFormed` | src/YOUR_PACKAGE/Entities/Migration.php:126-128 | the loop keeps ids and filenames unique |
| `Migrations.CreateAllCovers` | src/YOUR_PACKAGE/Entities/Migration.php:126-128 | after the loop every name has a row |
| `Migrations.RecordNew` | src/YOUR_PACKAGE/Entities/Migration.php:114-129 | discovery only appends, so existing rows (completed ones included) are untouched; each new row is a pending row of the package for a discovered file that the package has not completed |
| `Migrations.RecordNewSpec` | src/YOUR_PACKAGE/Entities/Migration.php:114-129 | on a well-formed table discovery keeps ids and filenames unique, and every discovered file has a row afterwards |
| `Migrations.PendingOf` | src/YOUR_PACKAGE/Entities/Migration.php:109-111 | exactly the package's uncompleted rows, sorted by filename, none of them repeated |
| `Migrations.Pending` | src/YOUR_PACKAGE/Entities/Migration.php:106-112 | the existing rows stay in place, and the result is exactly the package's uncompleted rows of the recorded table, in filename order |
| `Migrations.PendingOfDistinct` | src/YOUR_PACKAGE/Entities/Migration.php:106-112 | in a well-formed table the pending rows have distinct ids and distinct filenames |
| `Migrations.EmptySql` | src/YOUR_PACKAGE/Entities/Migration.php:65 | PHP's `empty()` on the file contents: `false`, `""` and `"0"` |
| `Migrations.RunEffect` | src/YOUR_PACKAGE/Entities/Migration.php:62-86 | the branches of `run`'s work, in the source's order; what they come to is stated by `RunEffectCases` |
| `Migrations.SameSqlMayEndDifferently` | src/YOUR_PACKAGE/Entities/Migration.php:63-69 | two SQL files with the same statement can end differently: the first completes and the second throws |
| `Migrations.RunEffectCases` | src/YOUR_PACKAGE/Entities/Migration.php:62-86 | an SQL file completes, is skipped when empty, or throws; a script completes, or its loading raises an exception or an error, or its class is missing, or running it raises an exception or an error; each completes exactly when all of its work went through |
| `Migrations.AfterRun` | src/YOUR_PACKAGE/Entities/Migration.php:88-90 | a run that did not complete leaves the table as it was; saving a stored row adds no row and uses up no id |
| `Migrations.RunMarksOnlyOnSuccess` | src/YOUR_PACKAGE/Entities/Migration.php:61-91 | a stored row is marked completed at `now` exactly when its work completes; on any other outcome the table is unchanged |
| `Migrations.AfterRunPreserves` | src/YOUR_PACKAGE/Entities/Migration.php:88-90 | `run` keeps the table well-formed and changes at most the row with the migration's id |
| `Migrations.Ledger.Save` | src/TripleI/Libraries/BaseModel.php:165-190 | saving a migration changes the table as `SaveRow` says |
| `Migrations.Ledger.GetOrCreateByFileName` | src/YOUR_PACKAGE/Entities/Migration.php:45-59 | the table and the returned row are those of `GetOrCreate` |
| `Migrations.Ledger.RecordNewMigrations` | src/YOUR_PACKAGE/Entities/Migration.php:114-129 | the table becomes `RecordNew` of the old one |
| `Migrations.Ledger.CreateEach` | src/YOUR_PACKAGE/Entities/Migration.php:126-128 | the loop leaves the table equal to `CreateAll` of the old one |
| `Migrations.Ledger.GetPendingMigrations` | src/YOUR_PACKAGE/Entities/Migration.php:106-112 | the table is recorded as discovery says, and the result is its pending list |
| `Migrations.Ledger.Run` | src/YOUR_PACKAGE/Entities/Migration.php:61-91 | the outcome and the new table are those of `RunResult` |
| `MigrationRunner.RunInOrderThrows` | src/TripleI/Libraries/MigrationRunner.php:20-23 | `migrate` ends with an exception exactly when some run throws one nothing catches, and then it is the first such run's |
| `MigrationRunner.RunInOrderStopsAtThrow` | src/TripleI/Libraries/MigrationRunner.php:21-23 | once a run has thrown, the migrations after it are never run |
| `MigrationRunner.MarkOneMore` | src/YOUR_PACKAGE/Entities/Migration.php:88-90 | completing one more pending migration, distinct by id from the earlier ones, marks exactly its row at its own time, and keeps every other row as the earlier runs left it |
| `MigrationRunner.RunInOrderStopsAt` | src/TripleI/Libraries/MigrationRunner.php:21-23 | once the first runs have thrown, the loop ends with the table and filename they left |
| `MigrationRunner.RunInOrderSucceeds` | src/TripleI/Libraries/MigrationRunner.php:20-23 | when every run succeeds nothing throws; the row of the j-th pending migration is marked completed at `clock(j)`; all other rows are unchanged |
| `MigrationRunner.RunOneKeepsPlaces` | src/YOUR_PACKAGE/Entities/Migration.php:88-90 | one more run keeps every row in place with its id, filename and package; on success the row with the run migration's id becomes it marked completed at that time, and every other row is left as it was |
| `MigrationRunner.MarkedCompletedPackage` | src/TripleI/Libraries/MigrationRunner.php:20-23 | once every pending row of the package is marked, every row of the package is completed |
| `MigrationRunner.MigrateCompletesPackage` | src/TripleI/Libraries/MigrationRunner.php:16-24 | when every run succeeds, no pending row of the package is left, every discovered file has a row, and every row of the table is still there under its id, filename and package |
| `MigrationRunner.RunAllCompletes` | src/TripleI/Libraries/MigrationRunner.php:20-23 | for any outcomes that complete every pending migration, the loop throws nothing, leaves no pending row, and keeps every earlier row and every discovered file |
| `MigrationRunner.RunPendingCompletes` | src/TripleI/Libraries/MigrationRunner.php:20-23 | when every pending run completes, the loop throws nothing, keeps every row in place, and leaves every row of the package completed |
| `MigrationRunner.CompletesPackage` | src/TripleI/Libraries/MigrationRunner.php:20-23 | once every pending row is marked completed none is left, and every earlier row and every discovered file still has a row |
| `MigrationRunner.NoPendingLeft` | src/YOUR_PACKAGE/Entities/Migration.php:109-111 | a package all of whose rows are completed has no pending rows |
| `MigrationRunner.KeepsPlacesOfPrefix` | src/TripleI/Libraries/MigrationRunner.php:20-23 | rows kept in place after discovery's appends are the original rows under their ids, filenames and packages |
| `MigrationRunner.RunInOrderTouchesOnlyRun` | src/TripleI/Libraries/MigrationRunner.php:21-23 | whatever each run comes to, the loop keeps the table well-formed and every row in place, and leaves a row whose id is no run migration's as it was |
| `MigrationRunner.RunInOrderLast` | src/TripleI/Libraries/MigrationRunner.php:21-23 | the loop's table is the one before the last migration when an earlier run threw, and otherwise that table after the last run |
| `MigrationRunner.UntouchedByMore` | src/TripleI/Libraries/MigrationRunner.php:21-23 | a row untouched by all the migrations but the last is untouched by all of them |
| `MigrationRunner.TouchOneMore` | src/TripleI/Libraries/MigrationRunner.php:21-23 | one more run, whatever it comes to, keeps the rows in place and leaves untouched every row whose id is no run migration's |
| `MigrationRunner.MigrateLeavesOtherRows` | src/TripleI/Libraries/MigrationRunner.php:16-24 | whatever each run comes to, `migrate` keeps every earlier row under its id, filename and package, and leaves completed rows and rows of other packages exactly as they were |
| `MigrationRunner.LeavesOtherRows` | src/TripleI/Libraries/MigrationRunner.php:20-23 | a completed row or a row of another package shares its id with no pending migration, so the loop leaves it as it was |
| `MigrationRunner.RunInOrderExtend` | src/TripleI/Libraries/MigrationRunner.php:21-22 | when the first `i` runs threw nothing, iteration `i` runs the next migration on the table they left, and throws exactly when that run's outcome is uncaught |
| `MigrationRunner.Runner.constructor` | src/TripleI/Libraries/MigrationRunner.php:17 | a new runner has no package |
| `MigrationRunner.Runner.SetPackage` | src/TripleI/Libraries/MigrationRunner.php:50-53 | the runner's package becomes the argument |
| `MigrationRunner.Runner.GetPendingMigrations` | src/TripleI/Libraries/MigrationRunner.php:37-40 | the pending list and the recorded table are those of the runner's package |
| `MigrationRunner.Runner.GetMigrationPath` | src/TripleI/Libraries/MigrationRunner.php:45-48 | the runner computes the same directory as the entity does for that package |
| `MigrationRunner.Migrate` | src/TripleI/Libraries/MigrationRunner.php:16-24 | discovery, then each pending migration run once in filename order, stopping at the first uncaught exception |
| `MigrationRunner.RunPending` | src/TripleI/Libraries/MigrationRunner.php:21-23 | the loop leaves the table and the thrown filename equal to `RunInOrder` |

## Left out

- The ORM's own behaviour is replaced by in-memory tables: the identity map, `flush`, lazy loading and transactions. Rows are values, so two PHP objects for one row are the same value here. The merge of a record whose positive id is not stored is not modelled: the model leaves the rows as they were.
- `findBy`'s result order for the completed rows is taken as table order.
- The database collation is taken as binary: strings compare character by character and are equal only when identical. This covers `ORDER BY filename` and the equality lookups `findOneBy(['filename' => ...])` (Migration.php:49) and `findBy([... 'package' => ...])` (Migration.php:100 and 111). A case-insensitive collation would order the pending list differently, and would match `001_a.sql` to a row for `001_A.sql`.
- `getEntitymanager` in BaseModel.php and in MigrationRunner.php is framework plumbing. The runner's version reads a property that does not exist.
- `factory`, `getByIDs`, `destroy`, `getImage`, `get`, `getAllSelectOptions` and `getSlug` are not modelled. They delegate to the ORM, to reflection, or to framework helpers.
- `getAll`'s `findBy` call is not modelled; only the sort it passes is. `property_exists($obj, '_default_sort')` becomes an optional default sort.
- `beforeSave`, `beforeCreate` and `validate` are inputs (`Hooks`); a subclass's side effects in them are not modelled. For `Migration` they all accept.
- `afterSave` (called at BaseModel.php:187, defined empty at 202-204) is not modelled: its default does nothing, and a subclass's side effects are outside the model.
- `setData` calls a setter method when one exists. Here every key is a plain property assignment, and properties live in a map of their own, so a data key named `errors` does not replace the error map.
- `in_array($key, $skip_fields)` compares loosely. Keys are strings here, so PHP 7's `0 == 'id'` for an integer key is not modelled.
- BaseModel.GetByID: takes the id after `intval`; the conversion itself (strings, floats) is not modelled.
- BaseModel.Count: models PHP 7's `count` (1 for a string). Under PHP 8, `count` of a string throws a TypeError. `getAll` reaches that call only when the model declares `_default_sort`, because `&&` short-circuits at BaseModel.php:112.
- Migrations.ClassName: counts characters where PHP's `substr($s, 1)` and `substr($s, 0, -4)` count bytes. The two agree when each character of the filename stands for one byte (ASCII names, say). A multi-byte separator or extension (an en dash in `001–Foo.php`) leaves stray bytes in PHP's class name, but not in the model's.
- Migrations.ClassNameOf: holds of the model's character-counting `ClassName`; for PHP's byte-counting derivation it holds only when the separator and the extension are single-byte characters.
- `print $e->getMessage()` output is not modelled.
- A missing file makes `require_once` a fatal error that stops the whole script. It is modelled as an `\Error` while loading (`LoadErrored`): like the real fatal error, it leaves `migrate` before the next migration, but script shutdown itself is not modelled.
- `new \DateTime("now")` is the integer `now`, or `clock(k)` inside `migrate`.
- MigrationRunner.Runner.GetPendingMigrations: requires a package to be set. PHP calls `getPackageHandle()` on null otherwise, which is a fatal error.
- MigrationRunner.Runner.GetMigrationPath: requires a package to be set, for the same reason.
- MigrationRunner.Migrate: takes a package. `migrate(null)` is a fatal error in PHP.
- src/Console/Command/Migrate.php is not part of this model. It is console wiring around the same loop.

=== FILE: base_model.dfy ===
/**
 * The generic record lifecycle every entity inherits (TripleI\Libraries\BaseModel):
 * a per-record error map, bulk assignment that skips protected keys, the save
 * control flow with its hooks, cloning, and the lookup guards. The ORM's
 * entity manager is an in-memory `Store` of rows keyed by id; a record's
 * dynamically assigned properties are a map from property name to value.
 */
module BaseModel {
  import opened Wrappers
  import opened Collections

  /** A PHP property value as a record holds it. */
  datatype Value = Null | Bool(b: bool) | Int(i: int) | Str(s: string)

  /** What `getErrors` returns: the whole map, one message, or null. */
  datatype ErrorView = AllErrors(errors: map<string, string>) | Message(msg: string) | NoMessage

  /** The results of the hooks a subclass overrides (`beforeSave`, `validate`, `beforeCreate`). */
  datatype Hooks = Hooks(beforeSave: bool, validate: map<string, Value> -> bool, beforeCreate: bool)

  /** The three ways `save` can end. */
  datatype SaveAction = Abort | Merge | Persist

  /** One persisted record: its generated id and its properties. */
  datatype Row = Row(id: int, fields: map<string, Value>)

  /** The argument of `getOneBy`: an array of field => value, or anything else. */
  datatype Criteria = ArrayCriteria(pairs: map<string, Value>) | NotAnArray(arg: Value)

  /** The outcome of `getOneBy`: a record, `false`, or the InvalidArgumentException. */
  datatype Lookup = Found(row: Row) | NotFound | InvalidArgument

  /** The `$sort` argument of `getAll` (or a model's `_default_sort`): an array or a single field name. */
  datatype Sort = SortFields(order: seq<(string, string)>) | SortField(name: string)

  /** Keys `setData` never assigns. */
  const SkipFields: set<string> := {"ccm_token", "id"}

  /** PHP truthiness of an id: null and 0 are falsy. */
  predicate IdTruthy(id: Option<int>) {
    id.Some? && id.value != 0
  }

  /** `$this->getId() > 0`: null compares as 0. */
  predicate IdPositive(id: Option<int>) {
    id.Some? && id.value > 0
  }

  /** PHP's `>` between a bool and an int converts the int to bool; true > false. */
  predicate BoolGreater(a: bool, n: int) {
    a && !(n != 0)
  }

  /**
   * `isNewRecord`: `!(bool) $this->getId() > 0` parses as `(!(bool) $id) > 0`,
   * so a record is new exactly when its id is falsy.
   */
  function IsNewId(id: Option<int>): (isNew: bool)
    ensures isNew <==> id == None || id == Some(0)
  {
    BoolGreater(!IdTruthy(id), 0)
  }

  /**
   * The control flow of `save` after `setData`: `beforeSave` may veto, then
   * validation unless skipped; a record with a positive id is merged, any
   * other one must pass `beforeCreate` and is persisted.
   */
  function SaveStep(id: Option<int>, beforeSave: bool, skipValidation: bool, valid: bool, beforeCreate: bool): (action: SaveAction)
    ensures action == Abort <==> !beforeSave || (!skipValidation && !valid) || (!IdPositive(id) && !beforeCreate)
    ensures action == Merge <==> beforeSave && (skipValidation || valid) && IdPositive(id)
    ensures action == Persist ==> !IdPositive(id)
  {
    if !beforeSave then Abort
    else if !skipValidation && !valid then Abort
    else if IdPositive(id) then Merge
    else if !beforeCreate then Abort
    else Persist
  }

  /** A record that already has a positive id is merged whatever `beforeCreate` would answer. */
  lemma MergeNeverAsksBeforeCreate(id: Option<int>, beforeSave: bool, skipValidation: bool, valid: bool)
    requires IdPositive(id)
    ensures SaveStep(id, beforeSave, skipValidation, valid, false) == SaveStep(id, beforeSave, skipValidation, valid, true)
    ensures SaveStep(id, beforeSave, skipValidation, valid, false) != Persist
  {
  }

  /**
   * `setData`: assigns every key/value pair in order, skipping `ccm_token` and `id`.
   * Setter dispatch is a plain property assignment here.
   */
  function ApplyData(fields: map<string, Value>, data: seq<(string, Value)>): (r: map<string, Value>)
    ensures forall k :: k in SkipFields ==> (k in r <==> k in fields)
    ensures forall k :: k in SkipFields && k in fields ==> r[k] == fields[k]
    ensures forall k :: k in r <==> k in fields || (k !in SkipFields && exists i :: 0 <= i < |data| && data[i].0 == k)
  {
    if |data| == 0 then fields
    else
      var init := data[..|data| - 1];
      var (k, v) := data[|data| - 1];
      var applied := ApplyData(fields, init);
      assert forall i :: 0 <= i < |init| ==> init[i] == data[i];
      if k in SkipFields then applied else applied[k := v]
  }

  /** A non-skipped key takes the value of its last occurrence in the data. */
  lemma {:induction false} ApplyDataLastWins(fields: map<string, Value>, data: seq<(string, Value)>, i: int)
    requires 0 <= i < |data| && data[i].0 !in SkipFields
    requires forall j :: i < j < |data| ==> data[j].0 != data[i].0
    ensures data[i].0 in ApplyData(fields, data) && ApplyData(fields, data)[data[i].0] == data[i].1
  {
    if i < |data| - 1 {
      ApplyDataLastWins(fields, data[..|data| - 1], i);
    }
  }

  /** A key the data does not mention keeps its value. */
  lemma {:induction false} ApplyDataLeavesOthers(fields: map<string, Value>, data: seq<(string, Value)>, k: string)
    requires k in fields
    requires forall i :: 0 <= i < |data| ==> data[i].0 != k
    ensures k in ApplyData(fields, data) && ApplyData(fields, data)[k] == fields[k]
  {
    if |data| > 0 {
      ApplyDataLeavesOthers(fields, data[..|data| - 1], k);
    }
  }

  /** `find` by id: the first row with that id. */
  function FindRow(rows: seq<Row>, id: int): (r: Option<Row>)
    ensures r.Some? ==> r.value in rows && r.value.id == id
    ensures r.None? ==> forall row :: row in rows ==> row.id != id
  {
    if |rows| == 0 then None
    else if rows[0].id == id then Some(rows[0])
    else FindRow(rows[1..], id)
  }

  /** `merge` of a record with an id: the row with that id takes the new properties. */
  function MergeRow(rows: seq<Row>, row: Row): (r: seq<Row>)
    ensures |r| == |rows|
    ensures forall i :: 0 <= i < |rows| ==> r[i].id == rows[i].id
  {
    ReplaceByKey(rows, row, (r: Row) => r.id)
  }

  /**
   * After a merge, `find` by the record's id returns the merged record when
   * that id was stored (and still nothing when it was not); `find` by any
   * other id returns what it returned before.
   */
  lemma {:induction false} MergeRowFind(rows: seq<Row>, row: Row, id: int)
    ensures FindRow(MergeRow(rows, row), id) ==
              if id == row.id && FindRow(rows, id).Some? then Some(row) else FindRow(rows, id)
  {
    if |rows| > 0 {
      var merged := MergeRow(rows, row);
      assert merged[1..] == MergeRow(rows[1..], row);
      MergeRowFind(rows[1..], row, id);
    }
  }

  /** A row's value for a criterion key: `id` is the mapped id column, any other key a property. */
  function FieldValue(row: Row, key: string): Option<Value> {
    if key == "id" then Some(Int(row.id))
    else if key in row.fields then Some(row.fields[key])
    else None
  }

  /** Whether a row agrees with every criterion. */
  predicate Matches(row: Row, criteria: map<string, Value>) {
    forall k :: k in criteria ==> FieldValue(row, k) == Some(criteria[k])
  }

  /** `findOneBy`: the first row that matches. */
  function FindMatch(rows: seq<Row>, criteria: map<string, Value>): (r: Option<Row>)
    ensures r.Some? ==> r.value in rows && Matches(r.value, criteria)
    ensures r.None? ==> forall row :: row in rows ==> !Matches(row, criteria)
  {
    if |rows| == 0 then None
    else if Matches(rows[0], criteria) then Some(rows[0])
    else FindMatch(rows[1..], criteria)
  }

  /** `findOneBy(['id' => $id])` finds the same row as `find($id)`. */
  lemma {:induction false} FindMatchById(rows: seq<Row>, id: int)
    ensures FindMatch(rows, map["id" := Int(id)]) == FindRow(rows, id)
  {
    if |rows| > 0 {
      var criteria := map["id" := Int(id)];
      assert "id" in criteria && FieldValue(rows[0], "id") == Some(Int(rows[0].id));
      if rows[0].id == id {
        assert Matches(rows[0], criteria);
      }
      FindMatchById(rows[1..], id);
    }
  }

  /** A row whose id no stored row has is found by that id once appended. */
  lemma {:induction false} FindRowAppendFresh(rows: seq<Row>, row: Row)
    requires forall i :: 0 <= i < |rows| ==> rows[i].id != row.id
    ensures FindRow(rows + [row], row.id) == Some(row)
  {
    if |rows| == 0 {
      assert rows + [row] == [row];
    } else {
      assert (rows + [row])[1..] == rows[1..] + [row];
      FindRowAppendFresh(rows[1..], row);
    }
  }

  /** Stored ids are positive, below the next generated id, and distinct. */
  ghost predicate RowsValid(rows: seq<Row>, nextId: int) {
    && nextId >= 1
    && (forall i :: 0 <= i < |rows| ==> 1 <= rows[i].id < nextId)
    && (forall i, j :: 0 <= i < j < |rows| ==> rows[i].id != rows[j].id)
  }

  /**
   * Merging keeps the stored ids valid, and `find` by the merged id then
   * returns the merged record when that id was stored.
   */
  lemma MergeValid(rows: seq<Row>, nextId: int, row: Row)
    requires RowsValid(rows, nextId)
    ensures RowsValid(MergeRow(rows, row), nextId)
    ensures FindRow(rows, row.id).Some? ==> FindRow(MergeRow(rows, row), row.id) == Some(row)
  {
    MergeRowFind(rows, row, row.id);
  }

  /**
   * Persisting under the next id keeps the stored ids valid once that id is
   * used up, and `find` by it returns the new row.
   */
  lemma PersistValid(rows: seq<Row>, nextId: int, fields: map<string, Value>)
    requires RowsValid(rows, nextId)
    ensures RowsValid(rows + [Row(nextId, fields)], nextId + 1)
    ensures FindRow(rows + [Row(nextId, fields)], nextId) == Some(Row(nextId, fields))
  {
    FindRowAppendFresh(rows, Row(nextId, fields));
  }

  /** The ORM's table for one entity class: rows in insertion order and the next generated id. */
  class Store {
    var rows: seq<Row>
    var nextId: int

    ghost predicate Valid()
      reads this
    {
      RowsValid(rows, nextId)
    }

    constructor ()
      ensures Valid() && rows == [] && nextId == 1
    {
      rows, nextId := [], 1;
    }
  }

  /**
   * `getByID`: `false` whenever `intval($id)` is 0, otherwise the row with
   * that id if there is one. The argument is the value after `intval`.
   */
  function GetByID(store: Store, id: int): (r: Option<Row>)
    reads store
    ensures id == 0 ==> r.None?
    ensures r.Some? ==> r.value in store.rows && r.value.id == id
    ensures r.None? && id != 0 ==> forall row :: row in store.rows ==> row.id != id
  {
    if id == 0 then None else FindRow(store.rows, id)
  }

  /** `getOneBy`: anything but an array throws; otherwise the first matching row or `false`. */
  function GetOneBy(store: Store, criteria: Criteria): (r: Lookup)
    reads store
    ensures r == InvalidArgument <==> criteria.NotAnArray?
    ensures r.Found? ==> r.row in store.rows && Matches(r.row, criteria.pairs)
    ensures r == NotFound ==> forall row :: row in store.rows ==> !Matches(row, criteria.pairs)
  {
    match criteria
    case NotAnArray(_) => InvalidArgument
    case ArrayCriteria(pairs) =>
      match FindMatch(store.rows, pairs)
      case Some(row) => Found(row)
      case None => NotFound
  }

  /** PHP 7's `count`: the length of an array, 1 for a scalar; only the empty array counts 0. */
  function Count(sort: Sort): (n: nat)
    ensures n == 0 <==> sort == SortFields([])
  {
    match sort
    case SortFields(order) => |order|
    case SortField(_) => 1
  }

  /**
   * The ORDER BY `getAll` passes to the ORM: `_default_sort` (when the model
   * declares one) replaces an empty sort, and a single field name becomes
   * `[name => 'ASC']`.
   */
  function NormaliseSort(sort: Sort, defaultSort: Option<Sort>): (order: seq<(string, string)>)
    ensures sort.SortField? ==> order == [(sort.name, "ASC")]
    ensures sort.SortFields? && sort.order != [] ==> order == sort.order
    ensures sort == SortFields([]) && defaultSort.None? ==> order == []
    ensures sort == SortFields([]) && defaultSort.Some? ==> order == NormaliseSort(defaultSort.value, None)
    decreases if defaultSort.Some? then 1 else 0
  {
    var chosen := if defaultSort.Some? && Count(sort) == 0 then defaultSort.value else sort;
    match chosen
    case SortField(name) => [(name, "ASC")]
    case SortFields(order) => order
  }

  /** A record of any entity class: its id, its other properties and its error map. */
  class Model {
    var id: Option<int>
    var fields: map<string, Value>
    var errors: map<string, string>

    constructor ()
      ensures id == None && fields == map[] && errors == map[]
      ensures IsNewRecord() && !HasError()
    {
      id, fields, errors := None, map[], map[];
    }

    /** `addError`: the message for `key`, replacing any earlier one. */
    method AddError(key: string, msg: string)
      modifies this`errors
      ensures errors == old(errors)[key := msg]
      ensures HasError()
      ensures GetErrors(Some(key)) == Message(msg)
      ensures forall k :: k != key ==> GetErrors(Some(k)) == old(GetErrors(Some(k)))
    {
      errors := errors[key := msg];
    }

    /** `hasError`: `count($this->errors) > 0`. */
    function HasError(): (r: bool)
      reads this
      ensures r <==> errors != map[]
    {
      |errors| > 0
    }

    /** `getErrors`: the whole map for null, otherwise the key's message or null. */
    function GetErrors(key: Option<string>): (r: ErrorView)
      reads this
      ensures key.None? ==> r == AllErrors(errors)
      ensures key.Some? ==> (r.Message? <==> key.value in errors) && (r.Message? || r == NoMessage)
      ensures r.Message? ==> key.Some? && r.msg == errors[key.value]
    {
      match key
      case None => AllErrors(errors)
      case Some(k) => if k in errors then Message(errors[k]) else NoMessage
    }

    /** `setData`: the loop over the data, skipping the protected keys. */
    method SetData(data: seq<(string, Value)>)
      modifies this`fields
      ensures fields == ApplyData(old(fields), data)
    {
      var i := 0;
      while i < |data|
        invariant 0 <= i <= |data|
        invariant fields == ApplyData(old(fields), data[..i])
      {
        var (key, value) := data[i];
        assert data[..i + 1][..i] == data[..i];
        if key !in SkipFields {
          fields := fields[key := value];
        }
        i := i + 1;
      }
      assert data[..i] == data;
    }

    /**
     * `save`: applies the data when given, then runs the hooks in order; a
     * merge rewrites the stored row, a persist stores a new row under the next
     * generated id and gives the record that id.
     */
    method Save(store: Store, data: Option<seq<(string, Value)>>, skipValidation: bool, hooks: Hooks) returns (ok: bool)
      requires store.Valid()
      modifies this, store
      ensures store.Valid()
      ensures errors == old(errors)
      ensures fields == if data.Some? then ApplyData(old(fields), data.value) else old(fields)
      ensures ok <==> SaveStep(old(id), hooks.beforeSave, skipValidation, hooks.validate(fields), hooks.beforeCreate) != Abort
      ensures SaveStep(old(id), hooks.beforeSave, skipValidation, hooks.validate(fields), hooks.beforeCreate) == Abort ==>
                id == old(id) && store.rows == old(store.rows) && store.nextId == old(store.nextId)
      ensures SaveStep(old(id), hooks.beforeSave, skipValidation, hooks.validate(fields), hooks.beforeCreate) == Merge ==>
                id == old(id) && store.rows == MergeRow(old(store.rows), Row(id.value, fields)) && store.nextId == old(store.nextId)
                && (FindRow(old(store.rows), id.value).Some? ==> FindRow(store.rows, id.value) == Some(Row(id.value, fields)))
      ensures SaveStep(old(id), hooks.beforeSave, skipValidation, hooks.validate(fields), hooks.beforeCreate) == Persist ==>
                id == Some(old(store.nextId)) && !IsNewRecord()
                && store.rows == old(store.rows) + [Row(old(store.nextId), fields)]
                && store.nextId == old(store.nextId) + 1
                && FindRow(store.rows, id.value) == Some(Row(id.value, fields))
    {
      if data.Some? {
        SetData(data.value);
      }
      var action := SaveStep(id, hooks.beforeSave, skipValidation, hooks.validate(fields), hooks.beforeCreate);
      match action
      case Abort =>
        ok := false;
      case Merge =>
        MergeValid(store.rows, store.nextId, Row(id.value, fields));
        store.rows := MergeRow(store.rows, Row(id.value, fields));
        ok := true;
      case Persist =>
        PersistValid(store.rows, store.nextId, fields);
        id := Some(store.nextId);
        store.rows := store.rows + [Row(store.nextId, fields)];
        store.nextId := store.nextId + 1;
        ok := true;
    }

    /** `__clone`: a shallow copy whose id is cleared, so the copy is a new record. */
    method Clone() returns (copy: Model)
      ensures fresh(copy)
      ensures copy.id == None && copy.fields == fields && copy.errors == errors
      ensures copy.IsNewRecord()
    {
      copy := new Model();
      copy.fields, copy.errors := fields, errors;
    }

    /** `setId`: assigns the id and returns the record itself. */
    method SetId(newId: Option<int>) returns (self: Model)
      modifies this`id
      ensures id == newId && self == this
    {
      id := newId;
      self := this;
    }

    /** `isNewRecord`: whether the record has not been stored yet. */
    function IsNewRecord(): (isNew: bool)
      reads this
      ensures isNew <==> id == None || id == Some(0)
    {
      IsNewId(id)
    }
  }
}

=== FILE: collections.dfy ===
/**
 * Sequence operations that stand in for PHP's array functions and for the
 * WHERE / ORDER BY clauses the ORM sends to the database: filtering in
 * order, lexicographic order on strings, and sorting by a string key.
 */
module Collections {

  /** `r` is `s` with some elements left out and the others kept in their order. */
  ghost predicate SubsequenceOf<T>(r: seq<T>, s: seq<T>)
    decreases |s|
  {
    if |r| == 0 then true
    else if |s| == 0 then false
    else (r[|r| - 1] == s[|s| - 1] && SubsequenceOf(r[..|r| - 1], s[..|s| - 1]))
         || SubsequenceOf(r, s[..|s| - 1])
  }

  /** The elements of `s` that satisfy `p`, in their original order. */
  function Select<T(!new)>(s: seq<T>, p: T -> bool): (r: seq<T>)
    ensures |r| <= |s|
    ensures forall x :: multiset(r)[x] == if p(x) then multiset(s)[x] else 0
    ensures forall x :: x in r <==> x in s && p(x)
  {
    if |s| == 0 then []
    else
      var init, last := s[..|s| - 1], s[|s| - 1];
      assert s == init + [last];
      var rest := Select(init, p);
      assert forall x :: x in rest <==> x in multiset(rest);
      if p(last) then rest + [last] else rest
  }

  /** Filtering keeps the selected elements in their original order. */
  lemma {:induction false} SelectSubsequence<T(!new)>(s: seq<T>, p: T -> bool)
    ensures SubsequenceOf(Select(s, p), s)
  {
    if |s| > 0 {
      var init := s[..|s| - 1];
      SelectSubsequence(init, p);
      var rest := Select(init, p);
      if p(s[|s| - 1]) {
        assert (rest + [s[|s| - 1]])[..|rest|] == rest;
      }
    }
  }

  /** Filtering a concatenation filters each part and keeps the parts in order. */
  lemma {:induction false} SelectAppend<T(!new)>(a: seq<T>, b: seq<T>, p: T -> bool)
    ensures Select(a + b, p) == Select(a, p) + Select(b, p)
    decreases |b|
  {
    if |b| == 0 {
      assert a + b == a;
    } else {
      var init, last := b[..|b| - 1], b[|b| - 1];
      assert (a + b)[..|a + b| - 1] == a + init;
      assert (a + b)[|a + b| - 1] == last;
      SelectAppend(a, init, p);
      if p(last) {
        calc {
          Select(a + b, p);
          Select(a + init, p) + [last];
          Select(a, p) + Select(init, p) + [last];
          Select(a, p) + (Select(init, p) + [last]);
          Select(a, p) + Select(b, p);
        }
      } else {
        calc {
          Select(a + b, p);
          Select(a + init, p);
          Select(a, p) + Select(init, p);
          Select(a, p) + Select(b, p);
        }
      }
    }
  }

  /** Filtering one element further into a sequence appends that element exactly when it is kept. */
  lemma SelectPrefixStep<T(!new)>(s: seq<T>, i: nat, p: T -> bool)
    requires i < |s|
    ensures Select(s[..i + 1], p) == Select(s[..i], p) + if p(s[i]) then [s[i]] else []
  {
    assert s[..i + 1][..i] == s[..i];
  }

  /**
   * An ORM `merge` over rows held in a sequence: every element with `x`'s key
   * becomes `x`, in its own place; the others stay as they are.
   */
  function ReplaceByKey<T, K(==)>(s: seq<T>, x: T, key: T -> K): (r: seq<T>)
    ensures |r| == |s|
    ensures forall i :: 0 <= i < |s| ==> key(r[i]) == key(s[i])
  {
    seq(|s|, i requires 0 <= i < |s| => if key(s[i]) == key(x) then x else s[i])
  }

  /** Character-by-character order on strings (a binary collation). */
  predicate LexLeq(a: string, b: string)
    decreases |a|
  {
    |a| == 0 || (|b| > 0 && (a[0] < b[0] || (a[0] == b[0] && LexLeq(a[1..], b[1..]))))
  }

  lemma {:induction false} LexLeqTotal(a: string, b: string)
    ensures LexLeq(a, b) || LexLeq(b, a)
    decreases |a|
  {
    if |a| > 0 && |b| > 0 && a[0] == b[0] {
      LexLeqTotal(a[1..], b[1..]);
    }
  }

  lemma {:induction false} LexLeqTransitive(a: string, b: string, c: string)
    requires LexLeq(a, b) && LexLeq(b, c)
    ensures LexLeq(a, c)
    decreases |a|
  {
    if |a| > 0 && a[0] == b[0] && b[0] == c[0] {
      LexLeqTransitive(a[1..], b[1..], c[1..]);
    }
  }

  lemma {:induction false} LexLeqAntisymmetric(a: string, b: string)
    requires LexLeq(a, b) && LexLeq(b, a)
    ensures a == b
    decreases |a|
  {
    if |a| > 0 {
      LexLeqAntisymmetric(a[1..], b[1..]);
      assert a == [a[0]] + a[1..] && b == [b[0]] + b[1..];
    }
  }

  ghost predicate SortedBy<T>(s: seq<T>, key: T -> string) {
    forall i, j :: 0 <= i < j < |s| ==> LexLeq(key(s[i]), key(s[j]))
  }

  /** Inserts `x` before the first element whose key is not smaller. */
  function InsertBy<T>(x: T, s: seq<T>, key: T -> string): (r: seq<T>)
    ensures |r| == |s| + 1
    ensures multiset(r) == multiset(s) + multiset{x}
  {
    if |s| == 0 then [x]
    else if LexLeq(key(x), key(s[0])) then [x] + s
    else
      assert s == [s[0]] + s[1..];
      [s[0]] + InsertBy(x, s[1..], key)
  }

  /** Putting in front an element whose key is at most every key of a sorted sequence keeps it sorted. */
  lemma SortedCons<T>(h: T, tail: seq<T>, key: T -> string)
    requires SortedBy(tail, key)
    requires forall y :: y in tail ==> LexLeq(key(h), key(y))
    ensures SortedBy([h] + tail, key)
  {
    var r := [h] + tail;
    forall i, j | 0 <= i < j < |r|
      ensures LexLeq(key(r[i]), key(r[j]))
    {
      assert r[j] == tail[j - 1];
      if i > 0 {
        assert r[i] == tail[i - 1];
      }
    }
  }

  lemma {:induction false} InsertBySorted<T>(x: T, s: seq<T>, key: T -> string)
    requires SortedBy(s, key)
    ensures SortedBy(InsertBy(x, s, key), key)
  {
    if |s| == 0 {
    } else if LexLeq(key(x), key(s[0])) {
      forall y | y in s
        ensures LexLeq(key(x), key(y))
      {
        var k :| 0 <= k < |s| && s[k] == y;
        if k > 0 {
          LexLeqTransitive(key(x), key(s[0]), key(y));
        }
      }
      SortedCons(x, s, key);
    } else {
      var tail := InsertBy(x, s[1..], key);
      InsertBySorted(x, s[1..], key);
      LexLeqTotal(key(x), key(s[0]));
      forall y | y in tail
        ensures LexLeq(key(s[0]), key(y))
      {
        assert y in multiset(tail);
        if y != x {
          var k :| 0 <= k < |s| - 1 && s[1..][k] == y;
          assert s[k + 1] == y;
        }
      }
      SortedCons(s[0], tail, key);
    }
  }

  /** Insertion sort by a string key: the database's ORDER BY key ASC. */
  function SortBy<T>(s: seq<T>, key: T -> string): (r: seq<T>)
    ensures multiset(r) == multiset(s)
    ensures SortedBy(r, key)
  {
    if |s| == 0 then []
    else
      assert s == [s[0]] + s[1..];
      var rest := SortBy(s[1..], key);
      InsertBySorted(s[0], rest, key);
      InsertBy(s[0], rest, key)
  }

  /** Positions of a sequence whose multiset counts are at most one hold distinct values. */
  lemma {:induction false} DistinctFromMultiset<T>(s: seq<T>, i: int, j: int)
    requires forall x :: multiset(s)[x] <= 1
    requires 0 <= i < j < |s|
    ensures s[i] != s[j]
  {
    var a, x, b, y, c := s[..i], s[i], s[i + 1..j], s[j], s[j + 1..];
    assert s == a + [x] + b + [y] + c;
    assert multiset(s) == multiset(a) + multiset(b) + multiset(c) + multiset{x, y};
    assert multiset(s)[x] >= multiset{x, y}[x];
    assert x == y ==> multiset{x, y}[x] == 2;
  }

  /** A sequence without repeated values has multiset counts of at most one. */
  lemma {:induction false} MultisetFromDistinct<T>(s: seq<T>)
    requires forall i, j :: 0 <= i < j < |s| ==> s[i] != s[j]
    ensures forall x :: multiset(s)[x] <= 1
  {
    if |s| > 0 {
      var init := s[..|s| - 1];
      assert s == init + [s[|s| - 1]];
      MultisetFromDistinct(init);
      assert s[|s| - 1] !in init;
    }
  }
}

=== FILE: migration.dfy ===
/**
 * The migration ledger (YOUR_PACKAGE\Entities\Migration): one row per
 * migration file, keyed by filename, holding the owning package's handle, a
 * `completed` flag and the completion time. Discovery lists the package's
 * migrations directory and records every file that is not yet completed;
 * the pending query returns the package's uncompleted rows by filename;
 * `run` executes one migration (an SQL file or a migration class) and marks
 * it completed only when that work succeeds.
 *
 * The table is a `Table` value (rows in insertion order plus the next
 * generated id); `Ledger` is the repository object whose methods change it.
 * Everything outside the process is a field of `Env`.
 */
module Migrations {
  import opened Wrappers
  import opened Collections
  import BaseModel

  /** A package; only its handle is used. */
  datatype Package = Package(handle: string)

  /** One row of the TripleIMigration table. `id` is None until the row is stored. */
  datatype Migration = Migration(
    id: Option<int>,
    filename: string,
    completed: bool,
    completedAt: Option<int>,
    package: string)

  /** The table: rows in insertion order and the next id the database will generate. */
  datatype Table = Table(rows: seq<Migration>, nextId: int)

  /**
   * The world outside the process, as `run` and discovery see it:
   * the framework's DIR_PACKAGES constant, directory listings (None when
   * `opendir` fails), file contents (None when `file_get_contents` fails),
   * whether executing the SQL read from a path throws, what `require_once` of
   * a path raises, whether a class of that name exists, and what constructing
   * and running the migration class a path names raises. The last two
   * outcomes take the file's path, so that a run can fail on what an earlier
   * run changed even when two files hold the same SQL or name the same class.
   */
  datatype Env = Env(
    dirPackages: string,
    listDir: string -> Option<seq<string>>,
    readFile: string -> Option<string>,
    sqlThrows: (string, string) -> bool,
    loadRaises: string -> Raised,
    classExists: string -> bool,
    migrationRaises: (string, string) -> Raised)

  /**
   * What a piece of PHP code raises: nothing, an \Exception (which
   * `catch (\Exception $e)` catches), or an \Error such as a ParseError or a
   * TypeError (which it does not catch).
   */
  datatype Raised = Nothing | AnException | AnError

  /**
   * How `run` ends. `SqlThrew`, `LoadErrored`, `ClassMissing` and
   * `MigrationErrored` leave `run` with an exception or error that nothing
   * catches (instantiating an unknown class raises an \Error too); the others
   * return.
   */
  datatype RunOutcome =
    | Completed | SkippedEmptySql | SqlThrew
    | LoadThrew | LoadErrored | ClassMissing | MigrationThrew | MigrationErrored

  predicate Propagates(outcome: RunOutcome) {
    outcome in {SqlThrew, LoadErrored, ClassMissing, MigrationErrored}
  }

  /**
   * The table invariant: every row is stored under a positive id below the
   * next generated one, and no two rows share an id or a filename.
   */
  ghost predicate WellFormed(t: Table) {
    && t.nextId >= 1
    && (forall i :: 0 <= i < |t.rows| ==> t.rows[i].id.Some? && 0 < t.rows[i].id.value < t.nextId)
    && (forall i, j :: 0 <= i < j < |t.rows| ==> t.rows[i].id != t.rows[j].id)
    && (forall i, j :: 0 <= i < j < |t.rows| ==> t.rows[i].filename != t.rows[j].filename)
  }

  // ---------------------------------------------------------------- paths

  /** `getMigrationPath`: DIR_PACKAGES/<handle>/src/Migrations/ */
  function MigrationPath(dirPackages: string, handle: string): (path: string)
    ensures |path| == |dirPackages| + |handle| + 17
    ensures path[..|dirPackages| + 1] == dirPackages + "/"
    ensures path[|dirPackages| + 1..|dirPackages| + 1 + |handle|] == handle
    ensures path[|path| - 16..] == "/src/Migrations/"
  {
    dirPackages + "/" + handle + "/src/Migrations/"
  }

  /** Distinct packages have distinct migration directories. */
  lemma MigrationPathInjective(dirPackages: string, h1: string, h2: string)
    requires MigrationPath(dirPackages, h1) == MigrationPath(dirPackages, h2)
    ensures h1 == h2
  {
    var p := MigrationPath(dirPackages, h1);
    assert h1 == p[|dirPackages| + 1..|dirPackages| + 1 + |h1|];
  }

  /** `getFilePath`: the file inside the directory of the row's own package. */
  function FilePath(dirPackages: string, m: Migration): (path: string)
  {
    dirPackages + "/" + m.package + "/src/Migrations/" + m.filename
  }

  /** A row's file lies in the migrations directory of the row's own package. */
  lemma FilePathInDirectory(dirPackages: string, m: Migration)
    ensures FilePath(dirPackages, m) == MigrationPath(dirPackages, m.package) + m.filename
  {
  }

  // ------------------------------------------------------ string helpers

  predicate IsDigit(c: char) {
    '0' <= c <= '9'
  }

  /** PHP `substr($s, -4)`: the last four characters, or all of a shorter string. */
  function LastFour(s: string): string {
    if |s| < 4 then s else s[|s| - 4..]
  }

  /** `substr($filename, -4) == '.sql'`: selects the SQL path of `run`. */
  predicate IsSqlFile(filename: string) {
    var suffix := LastFour(filename);
    |suffix| == 4 && suffix[0] == '.' && suffix[1] == 's' && suffix[2] == 'q' && suffix[3] == 'l'
  }

  /** A file is run as SQL exactly when its name ends in ".sql". */
  lemma IsSqlFileIff(filename: string)
    ensures IsSqlFile(filename) <==> |filename| >= 4 && filename[|filename| - 4..] == ".sql"
  {
  }

  /** `preg_replace('#^\d+#', '', $s)`: removes the leading run of ASCII digits. */
  function StripLeadingDigits(s: string): string {
    if |s| > 0 && IsDigit(s[0]) then StripLeadingDigits(s[1..]) else s
  }

  /** What is removed is a run of digits, what is kept is a suffix that does not start with one. */
  lemma {:induction false} StripLeadingDigitsSpec(s: string)
    ensures var r := StripLeadingDigits(s);
            && |r| <= |s| && r == s[|s| - |r|..]
            && (forall i :: 0 <= i < |s| - |r| ==> IsDigit(s[i]))
            && (|r| > 0 ==> !IsDigit(r[0]))
  {
    if |s| > 0 && IsDigit(s[0]) {
      StripLeadingDigitsSpec(s[1..]);
    }
  }

  /** PHP 8 `substr($s, 1)`: all but the first character ("" for ""). */
  function DropFirst(s: string): string {
    if |s| >= 1 then s[1..] else ""
  }

  /** PHP 8 `substr($s, 0, -4)`: all but the last four characters ("" when shorter). */
  function DropLastFour(s: string): string {
    if |s| >= 4 then s[..|s| - 4] else ""
  }

  /** The class `run` instantiates for a script migration. */
  function ClassName(filename: string): string {
    "\\Migrations\\" + DropLastFour(DropFirst(StripLeadingDigits(filename))) + "Migration"
  }

  /** Whatever the filename, the class is in the `\Migrations` namespace and its name ends in `Migration`. */
  lemma ClassNameShape(filename: string)
    ensures var name := ClassName(filename);
            && |name| >= 21 && name[..12] == "\\Migrations\\" && name[|name| - 9..] == "Migration"
  {
  }

  lemma {:induction false} StripLeadingDigitsOf(digits: string, rest: string)
    requires forall i :: 0 <= i < |digits| ==> IsDigit(digits[i])
    requires |rest| > 0 && !IsDigit(rest[0])
    ensures StripLeadingDigits(digits + rest) == rest
  {
    if |digits| > 0 {
      assert (digits + rest)[1..] == digits[1..] + rest;
      StripLeadingDigitsOf(digits[1..], rest);
    } else {
      assert digits + rest == rest;
    }
  }

  /**
   * A script migration named <digits><separator><Name><4-character extension>
   * runs the class \Migrations\<Name>Migration.
   */
  lemma ClassNameOf(digits: string, separator: char, name: string, extension: string)
    requires forall i :: 0 <= i < |digits| ==> IsDigit(digits[i])
    requires !IsDigit(separator) && |extension| == 4
    ensures ClassName(digits + [separator] + name + extension) == "\\Migrations\\" + name + "Migration"
  {
    var rest := [separator] + name + extension;
    assert digits + [separator] + name + extension == digits + rest;
    StripLeadingDigitsOf(digits, rest);
    assert DropFirst(rest) == name + extension;
    assert DropLastFour(name + extension) == name;
  }

  /** The script `001_AddTable.php` runs the class `\\Migrations\\AddTableMigration`. */
  lemma ClassNameExample()
    ensures ClassName("001_AddTable.php") == "\\Migrations\\" + "AddTable" + "Migration"
  {
    assert "001" + "_AddTable.php" == "001_AddTable.php";
    StripLeadingDigitsOf("001", "_AddTable.php");
    assert DropFirst("_AddTable.php") == "AddTable.php";
    assert DropLastFour("AddTable.php") == "AddTable";
  }

  // ----------------------------------------------------- entity members

  /** `validate`: a migration row is always valid. */
  function Validate(m: Migration): (valid: bool)
    ensures valid
  {
    true
  }

  /** `__toString`: "<filename> - <package>". */
  function ToString(m: Migration): (s: string)
    ensures |s| == |m.filename| + 3 + |m.package|
    ensures s[..|m.filename|] == m.filename
    ensures s[|m.filename|..|m.filename| + 3] == " - "
    ensures s[|m.filename| + 3..] == m.package
  {
    m.filename + " - " + m.package
  }

  function FilenameOf(m: Migration): string {
    m.filename
  }

  // ------------------------------------------------------------ queries

  /** `findOneBy(['filename' => ...])`: the first row with that filename, whatever its package. */
  function FindByFilename(rows: seq<Migration>, filename: string): (r: Option<Migration>)
    ensures r.Some? ==> r.value in rows && r.value.filename == filename
    ensures r.None? <==> forall m :: m in rows ==> m.filename != filename
  {
    if |rows| == 0 then None
    else if rows[0].filename == filename then Some(rows[0])
    else FindByFilename(rows[1..], filename)
  }

  /** In a well-formed table a filename names at most one row. */
  lemma {:induction false} UniqueByFilename(t: Table, m1: Migration, m2: Migration)
    requires WellFormed(t)
    requires m1 in t.rows && m2 in t.rows && m1.filename == m2.filename
    ensures m1 == m2
  {
    var i :| 0 <= i < |t.rows| && t.rows[i] == m1;
    var j :| 0 <= j < |t.rows| && t.rows[j] == m2;
    assert !(i < j) && !(j < i);
  }

  /** In a well-formed table an id names at most one row. */
  lemma {:induction false} UniqueById(t: Table, m1: Migration, m2: Migration)
    requires WellFormed(t)
    requires m1 in t.rows && m2 in t.rows && m1.id == m2.id
    ensures m1 == m2
  {
    var i :| 0 <= i < |t.rows| && t.rows[i] == m1;
    var j :| 0 <= j < |t.rows| && t.rows[j] == m2;
    assert !(i < j) && !(j < i);
  }

  /** `getCompletedMigrations`: the package's rows with `completed` set. */
  function CompletedMigrations(t: Table, pkg: Package): (r: seq<Migration>)
    ensures forall m :: m in r <==> m in t.rows && m.completed && m.package == pkg.handle
  {
    Select(t.rows, (m: Migration) => m.completed && m.package == pkg.handle)
  }

  /** The filenames of some rows, in order. */
  function Filenames(ms: seq<Migration>): (names: seq<string>)
    ensures |names| == |ms|
    ensures forall i :: 0 <= i < |ms| ==> names[i] == ms[i].filename
  {
    if |ms| == 0 then [] else Filenames(ms[..|ms| - 1]) + [ms[|ms| - 1].filename]
  }

  /** The `foreach` that collects the completed rows' filenames. */
  method CollectFilenames(completed: seq<Migration>) returns (completedNames: seq<string>)
    ensures completedNames == Filenames(completed)
  {
    completedNames := [];
    for i := 0 to |completed|
      invariant completedNames == Filenames(completed[..i])
    {
      assert completed[..i + 1][..i] == completed[..i];
      completedNames := completedNames + [completed[i].filename];
    }
    assert completed[..|completed|] == completed;
  }

  /** A directory entry that names a migration: anything but "." and "..". */
  predicate IsMigrationEntry(entry: string) {
    entry != "." && entry != ".."
  }

  /** `getMigrationFileNames`: the directory's entries in listing order, without "." and "..". */
  function MigrationFileNames(env: Env, pkg: Package): (names: seq<string>)
    ensures forall n :: n in names ==> IsMigrationEntry(n)
    ensures env.listDir(MigrationPath(env.dirPackages, pkg.handle)).None? ==> names == []
    ensures env.listDir(MigrationPath(env.dirPackages, pkg.handle)).Some? ==>
              && names == Select(env.listDir(MigrationPath(env.dirPackages, pkg.handle)).value, IsMigrationEntry)
              && forall n :: n in names <==> n in env.listDir(MigrationPath(env.dirPackages, pkg.handle)).value && IsMigrationEntry(n)
  {
    match env.listDir(MigrationPath(env.dirPackages, pkg.handle))
    case None => []
    case Some(entries) => Select(entries, IsMigrationEntry)
  }

  /** The discovered names come in listing order. */
  lemma MigrationFileNamesInOrder(env: Env, pkg: Package)
    ensures env.listDir(MigrationPath(env.dirPackages, pkg.handle)).Some? ==>
              SubsequenceOf(MigrationFileNames(env, pkg), env.listDir(MigrationPath(env.dirPackages, pkg.handle)).value)
  {
    var listing := env.listDir(MigrationPath(env.dirPackages, pkg.handle));
    if listing.Some? {
      SelectSubsequence(listing.value, IsMigrationEntry);
    }
  }

  /** `getMigrationFileNames`: list the package's migration directory, if it opens. */
  method GetMigrationFileNames(env: Env, pkg: Package) returns (migrations: seq<string>)
    ensures migrations == MigrationFileNames(env, pkg)
  {
    migrations := [];
    var listing := env.listDir(MigrationPath(env.dirPackages, pkg.handle));
    if listing.Some? {
      migrations := ReadEntries(listing.value);
    }
  }

  /** The readdir loop of `getMigrationFileNames`: every entry but "." and "..", in listing order. */
  method ReadEntries(entries: seq<string>) returns (migrations: seq<string>)
    ensures migrations == Select(entries, IsMigrationEntry)
  {
    migrations := [];
    for i := 0 to |entries|
      invariant migrations == Select(entries[..i], IsMigrationEntry)
    {
      SelectPrefixStep(entries, i, IsMigrationEntry);
      if IsMigrationEntry(entries[i]) {
        migrations := migrations + [entries[i]];
      }
    }
    assert entries[..|entries|] == entries;
  }

  /** `array_diff($migrations, $completedNames)`: discovered names not yet completed, in order. */
  function NotRun(discovered: seq<string>, completedNames: seq<string>): (r: seq<string>)
    ensures forall n :: n in r <==> n in discovered && n !in completedNames
  {
    Select(discovered, n => n !in completedNames)
  }

  /** The names left to run keep their discovery order. */
  lemma NotRunInOrder(discovered: seq<string>, completedNames: seq<string>)
    ensures SubsequenceOf(NotRun(discovered, completedNames), discovered)
  {
    SelectSubsequence(discovered, n => n !in completedNames);
  }

  // -------------------------------------------------------------- writes

  /** `merge`: the row with the record's id takes the record's values. */
  function ReplaceById(rows: seq<Migration>, m: Migration): (r: seq<Migration>)
    ensures |r| == |rows|
    ensures forall i :: 0 <= i < |rows| ==> r[i].id == rows[i].id
  {
    ReplaceByKey(rows, m, (r: Migration) => r.id)
  }

  /**
   * Merging a migration over the stored row with its id and filename (its
   * `i`-th row) replaces that row alone, keeps the table well-formed, and
   * looking its filename up then finds the merged migration.
   */
  lemma ReplaceByIdKeeps(t: Table, m: Migration, i: int)
    requires WellFormed(t) && 0 <= i < |t.rows|
    requires t.rows[i].id == m.id && t.rows[i].filename == m.filename
    ensures var r := t.(rows := ReplaceById(t.rows, m));
            && WellFormed(r)
            && r.rows[i] == m
            && (forall j :: 0 <= j < |t.rows| && j != i ==> r.rows[j] == t.rows[j])
            && FindByFilename(r.rows, m.filename) == Some(m)
  {
    var r := t.(rows := ReplaceById(t.rows, m));
    forall j | 0 <= j < |t.rows| && j != i
      ensures r.rows[j] == t.rows[j]
    {
      assert t.rows[j].id != t.rows[i].id by {
        if j < i {} else {}
      }
    }
    assert r.rows[i] == m;
    UniqueByFilename(r, FindByFilename(r.rows, m.filename).value, m);
  }

  /**
   * `save` on a migration, with the inherited hooks (which all accept) and
   * `validate`: a stored row is merged, a new one gets the next id.
   */
  function SaveRow(t: Table, m: Migration): (res: (Table, Migration))
    ensures BaseModel.IdPositive(m.id) ==> res == (t.(rows := ReplaceById(t.rows, m)), m)
    ensures !BaseModel.IdPositive(m.id) ==>
              res.1 == m.(id := Some(t.nextId)) && res.0 == Table(t.rows + [res.1], t.nextId + 1)
  {
    match BaseModel.SaveStep(m.id, true, false, Validate(m), true)
    case Abort => (t, m)
    case Merge => (t.(rows := ReplaceById(t.rows, m)), m)
    case Persist =>
      var stored := m.(id := Some(t.nextId));
      (Table(t.rows + [stored], t.nextId + 1), stored)
  }

  /**
   * `getOrCreateByFileName`: the row found by filename alone when it has an
   * id, otherwise a new pending row for the package, saved.
   */
  function GetOrCreate(t: Table, filename: string, pkg: Package): (res: (Table, Migration))
    ensures res.1.filename == filename && res.1 in res.0.rows
    ensures res.0 == t || (res.1 == Migration(Some(t.nextId), filename, false, None, pkg.handle)
                           && res.0 == Table(t.rows + [res.1], t.nextId + 1))
    ensures (forall m :: m in t.rows ==> m.filename != filename) ==> res.0 != t
  {
    var found := FindByFilename(t.rows, filename);
    if found.Some? && BaseModel.IdTruthy(found.value.id) then (t, found.value)
    else SaveRow(t, Migration(None, filename, false, None, pkg.handle))
  }

  /** An existing row is returned unchanged and nothing is added, whatever the package asked for. */
  lemma GetOrCreateExisting(t: Table, filename: string, pkg: Package, m: Migration)
    requires WellFormed(t)
    requires m in t.rows && m.filename == filename
    ensures GetOrCreate(t, filename, pkg) == (t, m)
  {
    var found := FindByFilename(t.rows, filename);
    UniqueByFilename(t, found.value, m);
  }

  lemma GetOrCreateWellFormed(t: Table, filename: string, pkg: Package)
    requires WellFormed(t)
    ensures WellFormed(GetOrCreate(t, filename, pkg).0)
  {
  }

  /** Asking twice for the same filename (for any package) gives the same row and table. */
  lemma GetOrCreateIdempotent(t: Table, filename: string, pkg: Package, pkg2: Package)
    requires WellFormed(t)
    ensures var (t1, m1) := GetOrCreate(t, filename, pkg);
            GetOrCreate(t1, filename, pkg2) == (t1, m1)
  {
    var (t1, m1) := GetOrCreate(t, filename, pkg);
    GetOrCreateWellFormed(t, filename, pkg);
    GetOrCreateExisting(t1, filename, pkg2, m1);
  }

  /** The `foreach ($not_run ...)` loop of `recordNewMigrations`, one name after the other. */
  function CreateAll(t: Table, names: seq<string>, pkg: Package): (r: Table)
    ensures |r.rows| >= |t.rows| && r.rows[..|t.rows|] == t.rows
    ensures r.nextId >= t.nextId
    ensures forall i :: |t.rows| <= i < |r.rows| ==>
              r.rows[i].filename in names && !r.rows[i].completed
              && r.rows[i].completedAt.None? && r.rows[i].package == pkg.handle
  {
    if |names| == 0 then t
    else
      var init := names[..|names| - 1];
      var prev := CreateAll(t, init, pkg);
      assert forall n :: n in init ==> n in names;
      GetOrCreate(prev, names[|names| - 1], pkg).0
  }

  lemma {:induction false} CreateAllWellFormed(t: Table, names: seq<string>, pkg: Package)
    requires WellFormed(t)
    ensures WellFormed(CreateAll(t, names, pkg))
  {
    if |names| > 0 {
      CreateAllWellFormed(t, names[..|names| - 1], pkg);
      GetOrCreateWellFormed(CreateAll(t, names[..|names| - 1], pkg), names[|names| - 1], pkg);
    }
  }

  /** After the loop every name has a row. */
  lemma {:induction false} CreateAllCovers(t: Table, names: seq<string>, pkg: Package)
    ensures forall n :: n in names ==> exists m :: m in CreateAll(t, names, pkg).rows && m.filename == n
  {
    if |names| > 0 {
      var init := names[..|names| - 1];
      var prev := CreateAll(t, init, pkg);
      CreateAllCovers(t, init, pkg);
      var (next, m) := GetOrCreate(prev, names[|names| - 1], pkg);
      assert next.rows[..|prev.rows|] == prev.rows;
      forall n | n in names
        ensures exists m' :: m' in next.rows && m'.filename == n
      {
        if n in init {
          var m' :| m' in prev.rows && m'.filename == n;
          assert m' in next.rows[..|prev.rows|];
        } else {
          assert n == names[|names| - 1];
        }
      }
    }
  }

  /**
   * `recordNewMigrations`: a pending row for every discovered file the
   * package has not completed. Discovery only appends: every existing row
   * (completed ones included) is untouched, and every added row is a pending
   * row of this package for a discovered file that it has not completed.
   */
  function RecordNew(t: Table, env: Env, pkg: Package): (r: Table)
    ensures |r.rows| >= |t.rows| && r.rows[..|t.rows|] == t.rows
    ensures forall i :: |t.rows| <= i < |r.rows| ==>
              && r.rows[i].filename in MigrationFileNames(env, pkg)
              && r.rows[i].filename !in Filenames(CompletedMigrations(t, pkg))
              && !r.rows[i].completed && r.rows[i].package == pkg.handle
  {
    var discovered := MigrationFileNames(env, pkg);
    var completedNames := Filenames(CompletedMigrations(t, pkg));
    CreateAll(t, NotRun(discovered, completedNames), pkg)
  }

  /**
   * On a well-formed table discovery gives no filename a second row and
   * leaves every discovered file with a row.
   */
  lemma RecordNewSpec(t: Table, env: Env, pkg: Package)
    requires WellFormed(t)
    ensures var r := RecordNew(t, env, pkg);
            && WellFormed(r)
            && (forall n :: n in MigrationFileNames(env, pkg) ==> exists m :: m in r.rows && m.filename == n)
  {
    var discovered := MigrationFileNames(env, pkg);
    var completed := CompletedMigrations(t, pkg);
    var completedNames := Filenames(completed);
    var notRun := NotRun(discovered, completedNames);
    var r := CreateAll(t, notRun, pkg);
    CreateAllWellFormed(t, notRun, pkg);
    CreateAllCovers(t, notRun, pkg);
    forall n | n in discovered
      ensures exists m :: m in r.rows && m.filename == n
    {
      if n in completedNames {
        var k :| 0 <= k < |completedNames| && completedNames[k] == n;
        assert completed[k] in t.rows;
        assert completed[k] in r.rows[..|t.rows|];
      } else {
        assert n in notRun;
      }
    }
  }

  /** The database query of `getPendingMigrations`: the package's uncompleted rows ordered by filename. */
  function PendingOf(t: Table, pkg: Package): (r: seq<Migration>)
    ensures SortedBy(r, FilenameOf)
    ensures forall m :: m in r <==> m in t.rows && !m.completed && m.package == pkg.handle
    ensures forall m :: multiset(r)[m] <= multiset(t.rows)[m]
  {
    var selected := Select(t.rows, (m: Migration) => !m.completed && m.package == pkg.handle);
    var r := SortBy(selected, FilenameOf);
    assert forall m :: m in r <==> m in multiset(selected);
    r
  }

  /** In a well-formed table the pending rows have distinct ids and strictly ascending filenames. */
  lemma PendingOfDistinct(t: Table, pkg: Package)
    requires WellFormed(t)
    ensures var r := PendingOf(t, pkg);
            forall i, j :: 0 <= i < j < |r| ==> r[i].id != r[j].id && r[i].filename != r[j].filename
  {
    var r := PendingOf(t, pkg);
    MultisetFromDistinct(t.rows);
    forall i, j | 0 <= i < j < |r|
      ensures r[i].id != r[j].id && r[i].filename != r[j].filename
    {
      DistinctFromMultiset(r, i, j);
      if r[i].id == r[j].id {
        UniqueById(t, r[i], r[j]);
      }
      if r[i].filename == r[j].filename {
        UniqueByFilename(t, r[i], r[j]);
      }
    }
  }

  /**
   * `getPendingMigrations`: record new files, then query the pending rows.
   * The existing rows stay in place, and the result is exactly the package's
   * uncompleted rows of the new table, in filename order.
   */
  function Pending(t: Table, env: Env, pkg: Package): (res: (Table, seq<Migration>))
    ensures |res.0.rows| >= |t.rows| && res.0.rows[..|t.rows|] == t.rows
    ensures SortedBy(res.1, FilenameOf)
    ensures forall m :: m in res.1 <==> m in res.0.rows && !m.completed && m.package == pkg.handle
  {
    var recorded := RecordNew(t, env, pkg);
    (recorded, PendingOf(recorded, pkg))
  }

  // ----------------------------------------------------------------- run

  /** PHP `empty()` on the result of `file_get_contents`: false, "" and "0" are empty. */
  predicate EmptySql(contents: Option<string>) {
    contents.None? || contents.value == "" || contents.value == "0"
  }

  /** What the work of `run` comes to, before any marking. */
  function RunEffect(env: Env, m: Migration): RunOutcome {
    var path := FilePath(env.dirPackages, m);
    if IsSqlFile(m.filename) then
      var contents := env.readFile(path);
      if EmptySql(contents) then SkippedEmptySql
      else if env.sqlThrows(path, contents.value) then SqlThrew
      else Completed
    else
      var loaded := env.loadRaises(path);
      if loaded == AnException then LoadThrew
      else if loaded == AnError then LoadErrored
      else
        var className := ClassName(m.filename);
        if !env.classExists(className) then ClassMissing
        else
          var ran := env.migrationRaises(path, className);
          if ran == AnException then MigrationThrew
          else if ran == AnError then MigrationErrored
          else Completed
  }

  /**
   * An SQL file ends completed, skipped or with an SQL error; a script ends
   * completed or with one of the script failures. Either completes exactly
   * when all of its work went through: a non-empty SQL text that executes,
   * or a file that loads and a class that exists and runs, raising nothing.
   */
  lemma RunEffectCases(env: Env, m: Migration)
    ensures var outcome := RunEffect(env, m);
            && (IsSqlFile(m.filename) ==> outcome in {Completed, SkippedEmptySql, SqlThrew})
            && (!IsSqlFile(m.filename) ==>
                  outcome in {Completed, LoadThrew, LoadErrored, ClassMissing, MigrationThrew, MigrationErrored})
            && (IsSqlFile(m.filename) ==>
                  var path := FilePath(env.dirPackages, m);
                  var contents := env.readFile(path);
                  (outcome == Completed <==> !EmptySql(contents) && !env.sqlThrows(path, contents.value)))
            && (!IsSqlFile(m.filename) ==>
                  (outcome == Completed <==>
                     && env.loadRaises(FilePath(env.dirPackages, m)) == Nothing
                     && env.classExists(ClassName(m.filename))
                     && env.migrationRaises(FilePath(env.dirPackages, m), ClassName(m.filename)) == Nothing))
  {
  }

  /**
   * Two SQL files holding the same statement can end differently: the first
   * adds a column and completes, the second finds the column already there
   * and throws.
   */
  lemma SameSqlMayEndDifferently()
    ensures var first := Migration(Some(1), "001_a.sql", false, None, "p");
            var second := Migration(Some(2), "002_b.sql", false, None, "p");
            var env := Env("", dir => None, path => Some("ALTER TABLE t ADD c INT"),
                           (path, sql) => path == FilePath("", second),
                           path => Nothing, name => true, (path, name) => Nothing);
            RunEffect(env, first) == Completed && RunEffect(env, second) == SqlThrew
  {
    var first := Migration(Some(1), "001_a.sql", false, None, "p");
    var second := Migration(Some(2), "002_b.sql", false, None, "p");
    IsSqlFileIff("001_a.sql");
    IsSqlFileIff("002_b.sql");
    assert FilePath("", first)[20] == '1' && FilePath("", second)[20] == '2';
  }

  /** `run` on a row, including the save that marks it completed. */
  function RunResult(t: Table, m: Migration, env: Env, now: int): (Table, RunOutcome) {
    var outcome := RunEffect(env, m);
    (AfterRun(t, m, outcome, now), outcome)
  }

  /**
   * The table `run` leaves once its work has ended with `outcome`: only
   * success saves the row, and saving a stored row neither adds a row nor
   * uses up an id.
   */
  function AfterRun(t: Table, m: Migration, outcome: RunOutcome, now: int): (r: Table)
    ensures outcome != Completed ==> r == t
    ensures BaseModel.IdPositive(m.id) ==> r.nextId == t.nextId && |r.rows| == |t.rows|
  {
    if outcome == Completed then SaveRow(t, m.(completed := true, completedAt := Some(now))).0 else t
  }

  /** The work of `run` for each row, with the environment fixed. */
  function EffectIn(env: Env): Migration -> RunOutcome {
    (m: Migration) => RunEffect(env, m)
  }

  /**
   * A stored row is marked completed, at `now`, exactly when its work
   * succeeds; on any failure the table is left as it was.
   */
  lemma RunMarksOnlyOnSuccess(t: Table, m: Migration, env: Env, now: int)
    requires BaseModel.IdPositive(m.id)
    ensures var (t2, outcome) := RunResult(t, m, env, now);
            && outcome == RunEffect(env, m)
            && (outcome != Completed ==> t2 == t)
            && (outcome == Completed ==>
                  t2 == t.(rows := ReplaceById(t.rows, m.(completed := true, completedAt := Some(now)))))
  {
  }

  /**
   * Whatever its work came to, `run` on a row of a well-formed table keeps
   * it well-formed, and changes at most the row with the migration's id:
   * on success that row becomes the migration marked completed at `now`.
   */
  lemma AfterRunPreserves(t: Table, m: Migration, outcome: RunOutcome, now: int)
    requires WellFormed(t)
    requires exists i :: 0 <= i < |t.rows| && t.rows[i].id == m.id && t.rows[i].filename == m.filename
    ensures var r := AfterRun(t, m, outcome, now);
            && WellFormed(r) && r.nextId == t.nextId && |r.rows| == |t.rows|
            && forall i :: 0 <= i < |t.rows| ==>
                 r.rows[i] == if outcome == Completed && t.rows[i].id == m.id
                              then m.(completed := true, completedAt := Some(now)) else t.rows[i]
  {
    var i0 :| 0 <= i0 < |t.rows| && t.rows[i0].id == m.id && t.rows[i0].filename == m.filename;
    if outcome == Completed {
      var done := m.(completed := true, completedAt := Some(now));
      ReplaceByIdKeeps(t, done, i0);
    }
  }

  // ----------------------------------------------------------- the ledger

  /** The repository of migration rows; its methods are the entity's static methods and `run`. */
  class Ledger {
    var rows: seq<Migration>
    var nextId: int

    function State(): Table
      reads this
    {
      Table(rows, nextId)
    }

    constructor ()
      ensures State() == Table([], 1) && WellFormed(State())
    {
      rows, nextId := [], 1;
    }

    /** `save` for a migration: the inherited control flow with hooks that all accept. */
    method Save(m: Migration) returns (saved: Migration)
      modifies this
      ensures (State(), saved) == SaveRow(old(State()), m)
    {
      var action := BaseModel.SaveStep(m.id, true, false, Validate(m), true);
      match action
      case Abort =>
        saved := m;
      case Merge =>
        rows := ReplaceById(rows, m);
        saved := m;
      case Persist =>
        saved := m.(id := Some(nextId));
        rows := rows + [saved];
        nextId := nextId + 1;
    }

    method GetOrCreateByFileName(filename: string, pkg: Package) returns (m: Migration)
      modifies this
      ensures (State(), m) == GetOrCreate(old(State()), filename, pkg)
    {
      var found := FindByFilename(rows, filename);
      if found.Some? && BaseModel.IdTruthy(found.value.id) {
        m := found.value;
      } else {
        m := Migration(None, filename, false, None, pkg.handle);
        m := Save(m);
      }
    }

    method RecordNewMigrations(env: Env, pkg: Package)
      modifies this
      ensures State() == RecordNew(old(State()), env, pkg)
    {
      var migrations := GetMigrationFileNames(env, pkg);
      var completed := CompletedMigrations(State(), pkg);
      var completedNames := CollectFilenames(completed);
      var notRun := NotRun(migrations, completedNames);
      CreateEach(notRun, pkg);
    }

    /** The `foreach ($not_run ...)` loop: get-or-create a row for each name in turn. */
    method CreateEach(names: seq<string>, pkg: Package)
      modifies this
      ensures State() == CreateAll(old(State()), names, pkg)
    {
      for i := 0 to |names|
        invariant State() == CreateAll(old(State()), names[..i], pkg)
      {
        assert names[..i + 1][..i] == names[..i];
        var record := GetOrCreateByFileName(names[i], pkg);
      }
      assert names[..|names|] == names;
    }

    method GetPendingMigrations(env: Env, pkg: Package) returns (pending: seq<Migration>)
      modifies this
      ensures (State(), pending) == Pending(old(State()), env, pkg)
    {
      RecordNewMigrations(env, pkg);
      pending := PendingOf(State(), pkg);
    }

    /** `run`: the SQL or script path by suffix; the row is marked completed only on success. */
    method Run(m: Migration, env: Env, now: int) returns (outcome: RunOutcome)
      modifies this
      ensures (State(), outcome) == RunResult(old(State()), m, env, now)
    {
      var path := FilePath(env.dirPackages, m);
      if IsSqlFile(m.filename) {
        var contents := env.readFile(path);
        if EmptySql(contents) {
          return SkippedEmptySql;
        }
        if env.sqlThrows(path, contents.value) {
          return SqlThrew;
        }
      } else {
        var loaded := env.loadRaises(path);
        if loaded == AnException {
          return LoadThrew;
        } else if loaded == AnError {
          return LoadErrored;
        }
        var className := ClassName(m.filename);
        if !env.classExists(className) {
          return ClassMissing;
        }
        var ran := env.migrationRaises(path, className);
        if ran == AnException {
          return MigrationThrew;
        } else if ran == AnError {
          return MigrationErrored;
        }
      }
      var saved := Save(m.(completed := true, completedAt := Some(now)));
      outcome := Completed;
    }
  }
}

=== FILE: migration_runner.dfy ===
/**
 * The migration runner (TripleI\Libraries\MigrationRunner): for one package
 * it records the new migration files, then runs the package's pending
 * migrations one after the other in filename order. A run that ends with an
 * exception or error nothing catches (an SQL error, an \Error while loading
 * the file or running its class, a missing migration class) leaves `migrate`
 * at once, so the migrations after it are not reached.
 *
 * The time at which the k-th run of a `migrate` call finishes is `clock(k)`.
 */
module MigrationRunner {
  import opened Wrappers
  import opened Migrations

  /**
   * The `foreach` of `migrate` over a pending list, `effect(m)` being what the
   * work of `run` comes to for `m`: each migration is run in turn on the
   * table left by the previous ones. The second component is the filename of
   * the migration whose exception left the loop, if any.
   */
  function RunInOrder(t: Table, ms: seq<Migration>, effect: Migration -> RunOutcome, clock: nat -> int): (Table, Option<string>) {
    if |ms| == 0 then (t, None)
    else
      var (prev, threw) := RunInOrder(t, ms[..|ms| - 1], effect, clock);
      if threw.Some? then (prev, threw)
      else
        var m := ms[|ms| - 1];
        var outcome := effect(m);
        var next := AfterRun(prev, m, outcome, clock(|ms| - 1));
        if Propagates(outcome) then (next, Some(m.filename)) else (next, None)
  }

  /**
   * `migrate` leaves with an exception exactly when some pending run
   * throws one that nothing catches, and then it is the first such run's.
   */
  lemma {:induction false} RunInOrderThrows(t: Table, ms: seq<Migration>, effect: Migration -> RunOutcome, clock: nat -> int)
    ensures var threw := RunInOrder(t, ms, effect, clock).1;
            && (threw.None? <==> forall j :: 0 <= j < |ms| ==> !Propagates(effect(ms[j])))
            && (threw.Some? ==>
                  exists j :: 0 <= j < |ms| && threw.value == ms[j].filename && Propagates(effect(ms[j]))
                              && forall k :: 0 <= k < j ==> !Propagates(effect(ms[k])))
  {
    if |ms| > 0 {
      var n := |ms| - 1;
      var init := ms[..n];
      RunInOrderThrows(t, init, effect, clock);
      assert forall j :: 0 <= j < n ==> init[j] == ms[j];
      var threwBefore := RunInOrder(t, init, effect, clock).1;
      if threwBefore.Some? {
        var j :| 0 <= j < n && threwBefore.value == init[j].filename && Propagates(effect(init[j]))
                 && forall k :: 0 <= k < j ==> !Propagates(effect(init[k]));
        assert ms[j] == init[j];
      }
    }
  }

  /** Once a run has thrown, the migrations after it are never run. */
  lemma {:induction false} RunInOrderStopsAtThrow(t: Table, ms: seq<Migration>, rest: seq<Migration>, effect: Migration -> RunOutcome, clock: nat -> int)
    requires RunInOrder(t, ms, effect, clock).1.Some?
    ensures RunInOrder(t, ms + rest, effect, clock) == RunInOrder(t, ms, effect, clock)
  {
    if |rest| > 0 {
      var longer := ms + rest;
      assert longer[..|longer| - 1] == ms + rest[..|rest| - 1];
      RunInOrderStopsAtThrow(t, ms, rest[..|rest| - 1], effect, clock);
    } else {
      assert ms + rest == ms;
    }
  }

  /**
   * `r` is `t` with rows rewritten in place: `r` is well-formed, has the
   * same next id and as many rows, and each row keeps its id, filename and
   * package.
   */
  ghost predicate KeepsPlaces(t: Table, r: Table) {
    && WellFormed(r) && r.nextId == t.nextId && |r.rows| == |t.rows|
    && (forall i :: 0 <= i < |t.rows| ==>
          r.rows[i].id == t.rows[i].id && r.rows[i].filename == t.rows[i].filename
          && r.rows[i].package == t.rows[i].package)
  }

  /**
   * `r` is `t` after the migrations `ms` were each marked completed, the j-th
   * at `clock(j)`: rows keep their place, a row with the id of `ms[j]`
   * becomes `ms[j]` marked completed, and any other row is unchanged.
   */
  ghost predicate MarkedCompleted(t: Table, r: Table, ms: seq<Migration>, clock: nat -> int) {
    && KeepsPlaces(t, r)
    && (forall i, j :: 0 <= i < |t.rows| && 0 <= j < |ms| && t.rows[i].id == ms[j].id ==>
          r.rows[i] == ms[j].(completed := true, completedAt := Some(clock(j))))
    && (forall i :: 0 <= i < |t.rows| && (forall j :: 0 <= j < |ms| ==> t.rows[i].id != ms[j].id) ==>
          r.rows[i] == t.rows[i])
  }

  /**
   * Running one more migration, a row of `t`, on a table that keeps `t`'s
   * rows in place still keeps them in place; on success the row with that
   * migration's id becomes it marked completed at `now`, and every other
   * row is left as it was.
   */
  lemma RunOneKeepsPlaces(t: Table, prev: Table, m: Migration, outcome: RunOutcome, now: int)
    requires WellFormed(t) && m in t.rows && KeepsPlaces(t, prev)
    ensures var next := AfterRun(prev, m, outcome, now);
            && KeepsPlaces(t, next)
            && forall i :: 0 <= i < |t.rows| ==>
                 next.rows[i] == if outcome == Completed && t.rows[i].id == m.id
                                 then m.(completed := true, completedAt := Some(now)) else prev.rows[i]
  {
    var i0 :| 0 <= i0 < |t.rows| && t.rows[i0] == m;
    assert prev.rows[i0].id == m.id && prev.rows[i0].filename == m.filename;
    AfterRunPreserves(prev, m, outcome, now);
    forall i | 0 <= i < |t.rows| && t.rows[i].id == m.id
      ensures t.rows[i] == m
    {
      UniqueById(t, t.rows[i], m);
    }
  }

  /** Marking one more migration, which is a row of `t`, extends `MarkedCompleted` by it. */
  lemma {:induction false} MarkOneMore(t: Table, prev: Table, ms: seq<Migration>, clock: nat -> int)
    requires WellFormed(t) && |ms| > 0
    requires forall j :: 0 <= j < |ms| ==> ms[j] in t.rows
    requires forall j, k :: 0 <= j < k < |ms| ==> ms[j].id != ms[k].id
    requires MarkedCompleted(t, prev, ms[..|ms| - 1], clock)
    ensures MarkedCompleted(t, AfterRun(prev, ms[|ms| - 1], Completed, clock(|ms| - 1)), ms, clock)
  {
    var n := |ms| - 1;
    var init := ms[..n];
    var m := ms[n];
    var r := AfterRun(prev, m, Completed, clock(n));
    RunOneKeepsPlaces(t, prev, m, Completed, clock(n));
    forall i, j | 0 <= i < |t.rows| && 0 <= j < |ms| && t.rows[i].id == ms[j].id
      ensures r.rows[i] == ms[j].(completed := true, completedAt := Some(clock(j)))
    {
      if j < n {
        assert init[j] == ms[j];
      }
    }
    forall i | 0 <= i < |t.rows| && (forall j :: 0 <= j < |ms| ==> t.rows[i].id != ms[j].id)
      ensures r.rows[i] == t.rows[i]
    {
      assert t.rows[i].id != m.id;
      forall j | 0 <= j < n
        ensures t.rows[i].id != init[j].id
      {
        assert init[j] == ms[j];
      }
    }
  }

  /**
   * When every run succeeds, nothing throws and each table row whose id is
   * that of the j-th pending migration ends up as that migration marked
   * completed at `clock(j)`; every other row, and the next id, are unchanged.
   */
  lemma {:induction false} RunInOrderSucceeds(t: Table, ms: seq<Migration>, effect: Migration -> RunOutcome, clock: nat -> int)
    requires WellFormed(t)
    requires forall j :: 0 <= j < |ms| ==> ms[j] in t.rows && effect(ms[j]) == Completed
    requires forall j, k :: 0 <= j < k < |ms| ==> ms[j].id != ms[k].id
    ensures var (r, threw) := RunInOrder(t, ms, effect, clock);
            threw.None? && MarkedCompleted(t, r, ms, clock)
  {
    if |ms| > 0 {
      var n := |ms| - 1;
      var init := ms[..n];
      assert forall j :: 0 <= j < n ==> init[j] == ms[j];
      RunInOrderSucceeds(t, init, effect, clock);
      var prev := RunInOrder(t, init, effect, clock).0;
      assert RunInOrder(t, ms, effect, clock) == (AfterRun(prev, ms[n], Completed, clock(n)), None);
      MarkOneMore(t, prev, ms, clock);
    } else {
      assert MarkedCompleted(t, t, ms, clock);
    }
  }

  /** Marking every pending row of a package completed leaves the package with no uncompleted row. */
  lemma MarkedCompletedPackage(t: Table, r: Table, ms: seq<Migration>, clock: nat -> int, pkg: Package)
    requires MarkedCompleted(t, r, ms, clock)
    requires forall m :: m in t.rows && !m.completed && m.package == pkg.handle ==> m in ms
    ensures forall m :: m in r.rows && m.package == pkg.handle ==> m.completed
  {
    forall m | m in r.rows && m.package == pkg.handle
      ensures m.completed
    {
      var i :| 0 <= i < |r.rows| && r.rows[i] == m;
      var before := t.rows[i];
      if !before.completed {
        assert before in t.rows && before.package == pkg.handle;
        var j :| 0 <= j < |ms| && ms[j] == before;
        assert r.rows[i] == ms[j].(completed := true, completedAt := Some(clock(j)));
      }
    }
  }

  /**
   * After `migrate` in which every pending run succeeds, the package has no
   * pending rows left, every file discovered at the start has a row, and
   * every row of the table is still there under its id, filename and package.
   */
  lemma MigrateCompletesPackage(t: Table, env: Env, pkg: Package, clock: nat -> int)
    requires WellFormed(t)
    requires forall m :: m in Pending(t, env, pkg).1 ==> RunEffect(env, m) == Completed
    ensures var (recorded, pending) := Pending(t, env, pkg);
            var (r, threw) := RunInOrder(recorded, pending, EffectIn(env), clock);
            && threw.None? && WellFormed(r)
            && PendingOf(r, pkg) == []
            && (forall n :: n in MigrationFileNames(env, pkg) ==> exists m :: m in r.rows && m.filename == n)
            && |r.rows| >= |t.rows|
            && (forall m :: m in t.rows ==>
                  exists m' :: m' in r.rows && m'.id == m.id && m'.filename == m.filename && m'.package == m.package)
  {
    RecordNewSpec(t, env, pkg);
    RunAllCompletes(t, RecordNew(t, env, pkg), pkg, EffectIn(env), clock, MigrationFileNames(env, pkg));
  }

  /**
   * The loop-level step of `MigrateCompletesPackage`, for any outcome per
   * migration that completes every pending one.
   */
  lemma RunAllCompletes(t: Table, recorded: Table, pkg: Package, effect: Migration -> RunOutcome, clock: nat -> int, discovered: seq<string>)
    requires |recorded.rows| >= |t.rows| && recorded.rows[..|t.rows|] == t.rows
    requires WellFormed(recorded)
    requires forall n :: n in discovered ==> exists m :: m in recorded.rows && m.filename == n
    requires forall m :: m in PendingOf(recorded, pkg) ==> effect(m) == Completed
    ensures var (r, threw) := RunInOrder(recorded, PendingOf(recorded, pkg), effect, clock);
            && threw.None? && WellFormed(r)
            && PendingOf(r, pkg) == []
            && (forall n :: n in discovered ==> exists m :: m in r.rows && m.filename == n)
            && |r.rows| >= |t.rows|
            && (forall m :: m in t.rows ==>
                  exists m' :: m' in r.rows && m'.id == m.id && m'.filename == m.filename && m'.package == m.package)
  {
    RunPendingCompletes(recorded, pkg, effect, clock);
    var r := RunInOrder(recorded, PendingOf(recorded, pkg), effect, clock).0;
    CompletesPackage(t, recorded, r, pkg, discovered);
  }

  /**
   * Running the pending rows of a well-formed table, each of which
   * completes, throws nothing, keeps every row in place and leaves every row
   * of the package completed.
   */
  lemma RunPendingCompletes(t: Table, pkg: Package, effect: Migration -> RunOutcome, clock: nat -> int)
    requires WellFormed(t)
    requires forall m :: m in PendingOf(t, pkg) ==> effect(m) == Completed
    ensures var (r, threw) := RunInOrder(t, PendingOf(t, pkg), effect, clock);
            && threw.None? && KeepsPlaces(t, r)
            && forall m :: m in r.rows && m.package == pkg.handle ==> m.completed
  {
    var pending := PendingOf(t, pkg);
    PendingOfDistinct(t, pkg);
    RunInOrderSucceeds(t, pending, effect, clock);
    var r := RunInOrder(t, pending, effect, clock).0;
    MarkedCompletedPackage(t, r, pending, clock, pkg);
  }

  /**
   * The table-level step of `MigrateCompletesPackage`: once every row of the
   * package is completed, none is pending, and every row of the table
   * before discovery, and every discovered file, still has a row.
   */
  lemma CompletesPackage(t: Table, recorded: Table, r: Table, pkg: Package, discovered: seq<string>)
    requires |recorded.rows| >= |t.rows| && recorded.rows[..|t.rows|] == t.rows
    requires KeepsPlaces(recorded, r)
    requires forall m :: m in r.rows && m.package == pkg.handle ==> m.completed
    requires forall n :: n in discovered ==> exists m :: m in recorded.rows && m.filename == n
    ensures WellFormed(r) && PendingOf(r, pkg) == [] && |r.rows| >= |t.rows|
    ensures forall n :: n in discovered ==> exists m :: m in r.rows && m.filename == n
    ensures forall m :: m in t.rows ==>
              exists m' :: m' in r.rows && m'.id == m.id && m'.filename == m.filename && m'.package == m.package
  {
    NoPendingLeft(r, pkg);
    KeepsPlacesOfPrefix(t, recorded, r);
    assert recorded.rows[..|recorded.rows|] == recorded.rows;
    KeepsPlacesOfPrefix(recorded, recorded, r);
  }

  /** A package all of whose rows are completed has nothing pending. */
  lemma NoPendingLeft(r: Table, pkg: Package)
    requires forall m :: m in r.rows && m.package == pkg.handle ==> m.completed
    ensures PendingOf(r, pkg) == []
  {
    var left := PendingOf(r, pkg);
    assert multiset(left) == multiset{};
  }

  /**
   * A table whose first rows are `t`'s, kept in place in `r`: every row of
   * `t` is still in `r` under its id, filename and package.
   */
  lemma KeepsPlacesOfPrefix(t: Table, recorded: Table, r: Table)
    requires |recorded.rows| >= |t.rows| && recorded.rows[..|t.rows|] == t.rows
    requires KeepsPlaces(recorded, r)
    ensures forall i :: 0 <= i < |t.rows| ==>
              r.rows[i].id == t.rows[i].id && r.rows[i].filename == t.rows[i].filename
              && r.rows[i].package == t.rows[i].package
    ensures forall m :: m in t.rows ==>
              exists m' :: m' in r.rows && m'.id == m.id && m'.filename == m.filename && m'.package == m.package
  {
    assert forall i :: 0 <= i < |t.rows| ==> recorded.rows[i] == t.rows[i];
    forall m | m in t.rows
      ensures exists m' :: m' in r.rows && m'.id == m.id && m'.filename == m.filename && m'.package == m.package
    {
      var i :| 0 <= i < |t.rows| && t.rows[i] == m;
      assert r.rows[i] in r.rows;
    }
  }

  /** Every row of `t` whose id is that of none of `ms` is, in `r`, exactly as it was. */
  ghost predicate Untouched(t: Table, r: Table, ms: seq<Migration>) {
    && |r.rows| == |t.rows|
    && forall i :: 0 <= i < |t.rows| && (forall j :: 0 <= j < |ms| ==> t.rows[i].id != ms[j].id) ==>
         r.rows[i] == t.rows[i]
  }

  /**
   * Whatever the runs come to, the loop keeps the rows of a well-formed
   * table in place, and leaves a row whose id is no run migration's exactly
   * as it was.
   */
  lemma {:induction false} RunInOrderTouchesOnlyRun(t: Table, ms: seq<Migration>, effect: Migration -> RunOutcome, clock: nat -> int)
    requires WellFormed(t)
    requires forall j :: 0 <= j < |ms| ==> ms[j] in t.rows
    ensures var r := RunInOrder(t, ms, effect, clock).0;
            KeepsPlaces(t, r) && Untouched(t, r, ms)
  {
    if |ms| > 0 {
      var n := |ms| - 1;
      var init := ms[..n];
      assert forall j :: 0 <= j < n ==> init[j] == ms[j];
      RunInOrderTouchesOnlyRun(t, init, effect, clock);
      var prev := RunInOrder(t, init, effect, clock);
      RunInOrderLast(t, ms, effect, clock);
      if prev.1.None? {
        TouchOneMore(t, prev.0, ms, effect(ms[n]), clock(n));
      } else {
        UntouchedByMore(t, prev.0, ms);
      }
    } else {
      assert KeepsPlaces(t, t);
    }
  }

  /** The table the loop leaves is the one left before the last migration, or that one after the last run. */
  lemma RunInOrderLast(t: Table, ms: seq<Migration>, effect: Migration -> RunOutcome, clock: nat -> int)
    requires |ms| > 0
    ensures var prev := RunInOrder(t, ms[..|ms| - 1], effect, clock);
            RunInOrder(t, ms, effect, clock).0
              == if prev.1.Some? then prev.0 else AfterRun(prev.0, ms[|ms| - 1], effect(ms[|ms| - 1]), clock(|ms| - 1))
  {
  }

  /** Rows untouched by all of `ms` but the last are untouched by all of `ms`. */
  lemma UntouchedByMore(t: Table, r: Table, ms: seq<Migration>)
    requires |ms| > 0 && Untouched(t, r, ms[..|ms| - 1])
    ensures Untouched(t, r, ms)
  {
    var init := ms[..|ms| - 1];
    forall i | 0 <= i < |t.rows| && (forall j :: 0 <= j < |ms| ==> t.rows[i].id != ms[j].id)
      ensures r.rows[i] == t.rows[i]
    {
      forall j | 0 <= j < |init|
        ensures t.rows[i].id != init[j].id
      {
        assert init[j] == ms[j];
      }
    }
  }

  /** Running one more migration, a row of `t`, whatever its outcome, extends `Untouched` by it. */
  lemma TouchOneMore(t: Table, prev: Table, ms: seq<Migration>, outcome: RunOutcome, now: int)
    requires WellFormed(t) && |ms| > 0 && ms[|ms| - 1] in t.rows
    requires KeepsPlaces(t, prev) && Untouched(t, prev, ms[..|ms| - 1])
    ensures var next := AfterRun(prev, ms[|ms| - 1], outcome, now);
            KeepsPlaces(t, next) && Untouched(t, next, ms)
  {
    var m := ms[|ms| - 1];
    RunOneKeepsPlaces(t, prev, m, outcome, now);
    UntouchedByMore(t, prev, ms);
  }

  /**
   * Whatever the runs come to (`effect` is any outcome per migration, so
   * `EffectIn(env)` among them), `migrate` keeps every row that was in the
   * table with its id, filename and package, and leaves the rows of other
   * packages and the rows already completed exactly as they were.
   */
  lemma MigrateLeavesOtherRows(t: Table, env: Env, pkg: Package, effect: Migration -> RunOutcome, clock: nat -> int)
    requires WellFormed(t)
    ensures var (recorded, pending) := Pending(t, env, pkg);
            var r := RunInOrder(recorded, pending, effect, clock).0;
            && WellFormed(r) && |r.rows| >= |t.rows|
            && (forall i :: 0 <= i < |t.rows| ==>
                  r.rows[i].id == t.rows[i].id && r.rows[i].filename == t.rows[i].filename
                  && r.rows[i].package == t.rows[i].package)
            && (forall i :: 0 <= i < |t.rows| && (t.rows[i].completed || t.rows[i].package != pkg.handle) ==>
                  r.rows[i] == t.rows[i])
  {
    RecordNewSpec(t, env, pkg);
    LeavesOtherRows(t, RecordNew(t, env, pkg), pkg, effect, clock);
  }

  /**
   * The table-level step of `MigrateLeavesOtherRows`: a completed row, or a
   * row of another package, shares its id with no pending migration, so a
   * loop that only touches pending rows leaves it as it was.
   */
  lemma LeavesOtherRows(t: Table, recorded: Table, pkg: Package, effect: Migration -> RunOutcome, clock: nat -> int)
    requires |recorded.rows| >= |t.rows| && recorded.rows[..|t.rows|] == t.rows
    requires WellFormed(recorded)
    ensures var r := RunInOrder(recorded, PendingOf(recorded, pkg), effect, clock).0;
            && WellFormed(r) && |r.rows| >= |t.rows|
            && (forall i :: 0 <= i < |t.rows| ==>
                  r.rows[i].id == t.rows[i].id && r.rows[i].filename == t.rows[i].filename
                  && r.rows[i].package == t.rows[i].package)
            && (forall i :: 0 <= i < |t.rows| && (t.rows[i].completed || t.rows[i].package != pkg.handle) ==>
                  r.rows[i] == t.rows[i])
  {
    var pending := PendingOf(recorded, pkg);
    RunInOrderTouchesOnlyRun(recorded, pending, effect, clock);
    var r := RunInOrder(recorded, pending, effect, clock).0;
    KeepsPlacesOfPrefix(t, recorded, r);
    forall i | 0 <= i < |t.rows| && (t.rows[i].completed || t.rows[i].package != pkg.handle)
      ensures r.rows[i] == t.rows[i]
    {
      assert recorded.rows[i] == t.rows[i];
      forall j | 0 <= j < |pending|
        ensures recorded.rows[i].id != pending[j].id
      {
        if recorded.rows[i].id == pending[j].id {
          UniqueById(recorded, recorded.rows[i], pending[j]);
        }
      }
    }
  }

  /** A runner object: the package it migrates. */
  class Runner {
    var pkg: Option<Package>

    /** `new static()`: no package yet. */
    constructor ()
      ensures pkg == None
    {
      pkg := None;
    }

    /** `setPackage`: later calls use this package. */
    method SetPackage(p: Package)
      modifies this
      ensures pkg == Some(p)
    {
      pkg := Some(p);
    }

    /** `getPendingMigrations`: the ledger's pending list for the runner's package. */
    method GetPendingMigrations(ledger: Ledger, env: Env) returns (pending: seq<Migration>)
      requires pkg.Some?
      modifies ledger
      ensures (ledger.State(), pending) == Pending(old(ledger.State()), env, pkg.value)
    {
      pending := ledger.GetPendingMigrations(env, pkg.value);
    }

    /** `getMigrationPath`: the runner computes the same directory as the entity does. */
    function GetMigrationPath(env: Env): (path: string)
      reads this
      requires pkg.Some?
      ensures path == MigrationPath(env.dirPackages, pkg.value.handle)
    {
      env.dirPackages + "/" + pkg.value.handle + "/src/Migrations/"
    }
  }

  /** Running the next migration after a prefix of the pending list that did not throw is one more step of the loop. */
  lemma RunInOrderExtend(t: Table, ms: seq<Migration>, i: nat, env: Env, clock: nat -> int)
    requires i < |ms| && RunInOrder(t, ms[..i], EffectIn(env), clock).1.None?
    ensures var (next, outcome) := RunResult(RunInOrder(t, ms[..i], EffectIn(env), clock).0, ms[i], env, clock(i));
            RunInOrder(t, ms[..i + 1], EffectIn(env), clock) == (next, if Propagates(outcome) then Some(ms[i].filename) else None)
  {
    assert ms[..i + 1][..i] == ms[..i];
  }

  /** Once a prefix of the pending list has thrown, the whole loop ends where that prefix did. */
  lemma RunInOrderStopsAt(t: Table, ms: seq<Migration>, i: nat, effect: Migration -> RunOutcome, clock: nat -> int)
    requires i <= |ms| && RunInOrder(t, ms[..i], effect, clock).1.Some?
    ensures RunInOrder(t, ms, effect, clock) == RunInOrder(t, ms[..i], effect, clock)
  {
    RunInOrderStopsAtThrow(t, ms[..i], ms[i..], effect, clock);
    assert ms[..i] + ms[i..] == ms;
  }

  /**
   * `migrate`: a runner for the package gets the pending list, then each
   * migration is run in order until one throws. The result is the filename
   * of the migration whose exception leaves `migrate`, if any.
   */
  method Migrate(pkg: Package, ledger: Ledger, env: Env, clock: nat -> int) returns (threw: Option<string>)
    modifies ledger
    ensures var (recorded, pending) := Pending(old(ledger.State()), env, pkg);
            (ledger.State(), threw) == RunInOrder(recorded, pending, EffectIn(env), clock)
  {
    var runner := new Runner();
    runner.SetPackage(pkg);
    var pending := runner.GetPendingMigrations(ledger, env);
    threw := RunPending(ledger, pending, env, clock);
  }

  /** The `foreach` of `migrate`: `run` on each pending migration in turn, until one throws. */
  method RunPending(ledger: Ledger, pending: seq<Migration>, env: Env, clock: nat -> int) returns (threw: Option<string>)
    modifies ledger
    ensures (ledger.State(), threw) == RunInOrder(old(ledger.State()), pending, EffectIn(env), clock)
  {
    ghost var start := ledger.State();
    threw := None;
    for i := 0 to |pending|
      invariant (ledger.State(), threw) == RunInOrder(start, pending[..i], EffectIn(env), clock)
      invariant threw.None?
    {
      RunInOrderExtend(start, pending, i, env, clock);
      var outcome := ledger.Run(pending[i], env, clock(i));
      if Propagates(outcome) {
        threw := Some(pending[i].filename);
        RunInOrderStopsAt(start, pending, i + 1, EffectIn(env), clock);
        return;
      }
    }
    assert pending[..|pending|] == pending;
  }
}

=== FILE: wrappers.dfy ===
/** Optional values: PHP's `null` next to a value of some type. */
module Wrappers {

  datatype Option<+T> = None | Some(value: T)
}
